=== FILE: README.md ===
# AnyRouter check-in orchestration, modelled in Dafny

This project models the core of `checkin.py`, a script that signs in to one or
more accounts of a quota-based API gateway and then reads each account's
balance. The model covers:

- turning an account's cookie setting into a cookie dict (`parse_cookies`);
- the anti-bot (WAF) cookie bootstrap: filtering the browser's cookies down to
  the required names, and merging them under the user's cookies
  (`get_waf_cookies_with_playwright`, `prepare_cookies`);
- the check-in POST and how its reply is judged (`execute_check_in`);
- the balance GET and how quotas are scaled and displayed (`get_user_info`);
- the per-account state machine and the requests it issues (`check_in_account`);
- the loop of `main` over all accounts: the summary rows, the notification
  text, the balances dict, the exit code;
- the text the balance fingerprint is computed from (`generate_balance_hash`).

Everything is a pure function of its inputs. Where the script talks to the
world, the model takes the answer as a parameter:

- `Account.Bootstrap` is what the headless browser did. It loaded the page
  and reported its cookies, failed on the page, or failed to start.
- `Http.Response`, wrapped in `Base.Call`, is the reply to the POST or to the
  GET, or the exception that request raised.
- The clock reading of the notification is a string parameter.

A Python exception is `Base.Call.Raised(message)`. The messages the script
itself can provoke use CPython's text:

- `'<type>' object has no attribute 'get'`, when a JSON reply is not an object, with the Python type name of the value: `'list'` for an array, `'str'` for a string, `'NoneType'` for `null` (`Json.NoGetMessage`);
- `unsupported operand type(s) for /: '<type>' and 'int'`, when a quota is not
  a number, with the Python type name of the value: `'str'` for a string,
  `'NoneType'` for `null`, `'list'` for an array, `'dict'` for an object
  (`Json.DivisionTypeMessage`).

Instead of sending requests, `Account.CheckInAccount` returns the list of
requests it would issue (`Http.Event`). Several lemmas count and order those
requests.

Modules:

| module | file | models |
|---|---|---|
| Base | base.dfy | `Option`, and `Call` for a call that returns or raises |
| Text | text.dfy | `str.split`, `str.strip`, ASCII `lower`, `in`, `s[:n]`, decimal digits |
| Json | json.dfy | decoded JSON values, Python truthiness, `==` between bool and int, exception messages |
| Money | money.dfy | `round(raw / 500000, 2)` in hundredths and the `repr` of the result |
| Cookies | cookies.dfy | `parse_cookies`, the WAF cookie filter, `prepare_cookies` |
| CookieExamples | cookies.dfy | concrete cookie strings |
| Http | http.dfy | responses, bodies, and the request trace |
| CheckIn | checkin.dfy | `execute_check_in` |
| UserInfo | userinfo.dfy | `get_user_info` |
| Account | account.dfy | `check_in_account` |
| Fingerprint | fingerprint.dfy | the projection, key sort and serialisation in `generate_balance_hash` |
| Batch | batch.dfy | the account loop and exit code of `main` |

Quotas are kept as whole hundredths of a unit. The script divides the raw
integer by 500000 and rounds to two decimals. `Money.ToHundredths` is that
scaling, rounding half to even. `Money.Format` prints the value the way Python
prints such a float: `2.0`, `1.5`, `0.01`, `-3.25`. There is one zero in
hundredths, so the float `-0.0` is outside the model; see "## Left out".

## Model

| member | source | states |
|---|---|---|
| Text.SplitJoin | checkin.py:60 | Splitting a cookie string at `;` and joining the pieces with `;` gives the string back. |
| Text.Split | checkin.py:60 | `split(';')` always yields at least one piece, no piece contains the separator, and the pieces joined by it are the input. |
| Text.SplitAtFirst | checkin.py:62 | `split('=', 1)` cuts at the first `=`: the key has no `=`, and key, `=`, value rebuild the text. |
| Text.SplitAtFirstUnique | checkin.py:62 | Any cut of the text into a key without `=`, then `=`, then a value, is the one `split('=', 1)` makes. |
| Text.Strip | checkin.py:62 | `strip()` returns a contiguous piece of its input with whitespace on both sides. The piece neither starts nor ends with whitespace. |
| Text.StripIdempotent | checkin.py:62 | Stripping twice is stripping once. |
| Text.StripKeepsNonSpace | checkin.py:61-62 | A non-whitespace character such as `=` survives `strip()`, so a segment that has `=` still has it after stripping. |
| Text.NatToStringInjective | checkin.py:328 | Different numbers print differently, so the `account_{i + 1}` keys differ. |
| Money.ToHundredths | checkin.py:141-142 | The rounded quota is within half a hundredth (2500 raw units) of `raw / 500000`. It is exact when the raw amount is a multiple of 5000. |
| Money.ParseFormat | checkin.py:147 | The printed amount reads back as the same number of hundredths, so the display loses nothing. |
| Money.FormatInjective | checkin.py:147 | Different balances are displayed differently. |
| Money.ScaleExamples | checkin.py:141-142 | 1000000 raw shows as `2.0`, 750000 as `1.5`, 500000 as `1.0`. |
| Cookies.ParseCookies | checkin.py:53-65 | A dict passes through unchanged. A string is parsed by segments. Any other value gives `{}`. |
| Cookies.ParsedCookieKeys | checkin.py:59-63 | The keys of the parsed dict are exactly the keys of the `;`-segments that contain `=`. |
| Cookies.ParsedCookieSource | checkin.py:60-63 | Every parsed pair is some segment's key and value, cut at its first `=` after stripping the segment's ends. |
| Cookies.ParsedCookieFromLastSegment | checkin.py:60-63 | A segment with `=` sets its key to its value unless a later segment sets the same key. |
| Cookies.Overlay | checkin.py:59-64 | Successive `d[key] = value` assignments leave exactly the assigned keys. |
| Cookies.OverlayLastWins | checkin.py:63 | The value kept for a key is the value of the last assignment to it. |
| Cookies.SegmentEntry | checkin.py:61-63 | A segment assigns exactly when it contains `=`. The key has no `=`, and key, `=`, value make the stripped segment. |
| CookieExamples.TwoCookies | checkin.py:60-63 | `"a=1; b=2"` parses to `{a: 1, b: 2}`. |
| CookieExamples.BlanksAroundEqualsKept | checkin.py:62 | `"a = 1"` parses to the key `"a "` and the value `" 1"`. |
| CookieExamples.LaterSegmentWins | checkin.py:60-63 | `"s=x=y;junk;s=z"` parses to `{s: z}`. The value keeps later `=`, a segment without `=` is skipped, and a later segment overrides. |
| Cookies.RequiredEntry | checkin.py:107-111 | A browser cookie is kept exactly when it has a name among the required names and a value that is not `None`. |
| Cookies.FilterWafCookies | checkin.py:106-124 | The result is `None` exactly when some required name is supplied by no browser cookie. Otherwise its keys are exactly the required names. |
| Cookies.WafCookieValue | checkin.py:107-111 | A kept cookie has the value of the last browser cookie that supplies its name. |
| Cookies.PrepareCookies | checkin.py:154-167 | Fails exactly when WAF cookies are needed and the bootstrap gave `None` or `{}`. Otherwise the keys are the union, a user value overrides a WAF value, and WAF values for other keys are kept. |
| CheckIn.CheckInHeaders | checkin.py:173-175 | The POST headers add `Content-Type: application/json` and `X-Requested-With: XMLHttpRequest` and keep every other header. |
| CheckIn.Classify | checkin.py:182-201 | Any status other than 200 fails. A JSON object succeeds by `ret == 1`, `code == 0` or a truthy `success`. Other JSON raises the `.get` AttributeError. Text that is not JSON succeeds when it contains `success`, ignoring case. |
| CheckIn.ExecuteCheckIn | checkin.py:170-201 | An exception from the POST propagates uncaught. A reply that arrives is judged as `CheckIn.Classify` states, including its AttributeError. A reported success implies a 200 reply. |
| CheckIn.ClassifyTextIgnoresCase | checkin.py:193 | Lower-casing a non-JSON reply does not change the verdict. |
| CheckIn.RetOneOrTrue | checkin.py:186 | `{"ret": 1}` and `{"ret": true}` both succeed, since `True == 1`. |
| CheckIn.CodeFalseSucceeds | checkin.py:186 | `{"code": false}` succeeds, since `False == 0`. |
| CheckIn.SuccessStringSucceeds | checkin.py:186 | Any non-empty `success` string succeeds, even `"no"`. |
| CheckIn.NoMarkerFails | checkin.py:186-191 | An object with none of the markers, or with `code: null`, fails. |
| CheckIn.OtherStatusFails | checkin.py:182-201 | A success body under status 500 fails. |
| CheckIn.ListBodyRaises | checkin.py:184-185 | A JSON list raises `'list' object has no attribute 'get'`. |
| CheckIn.ClassifyTextExample | checkin.py:192-195 | The page `<b>SUCCESS</b>` counts as success. |
| UserInfo.ReadAmount | checkin.py:140-142 | A missing amount reads as 0. A number is scaled to hundredths. Any other value raises the `/` TypeError, `unsupported operand type(s) for /: '<type>' and 'int'`. |
| UserInfo.InfoFromJson | checkin.py:138-151 | A body that is not an object, or a `data` that is not one, is reported as the `.get` AttributeError. A falsy `success` reports `HTTP 200`. Otherwise the first amount that raises is reported as its TypeError. With both amounts read, the result is the balance and its display. |
| UserInfo.GetUserInfo | checkin.py:132-151 | Success requires a 200 JSON object with a truthy `success`, and the display shows both formatted amounts. Every error starts with `Failed to get user info: `. Another status, or a falsy `success`, reports `HTTP <status>`. An exception reports its message cut to 50 characters, then `...`. A decoded 200 body is judged as `UserInfo.InfoFromJson` states. |
| Text.Prefix | checkin.py:151 | `s[:n]` is the start of `s`, and it is `n` characters long unless `s` is shorter, when it is all of `s`. |
| UserInfo.ExceptionError | checkin.py:151 | The exception note is the prefix, the first 50 characters of the message (all of it when shorter), then `...`. |
| UserInfo.GetUserInfoAmounts | checkin.py:138-148 | With any truthy `success` and numeric or missing amounts, a 200 reply yields both amounts scaled, and a missing amount reads as 0. |
| UserInfo.MissingDataIsZero | checkin.py:139-142 | A `success` reply without `data` reports a balance of 0 used 0. |
| UserInfo.GetUserInfoExample | checkin.py:139-148 | Raw quota 1000000 with 500000 used displays `$2.0`, used `$1.0`. |
| UserInfo.NonNumericQuota | checkin.py:141-151 | A string quota is reported as the TypeError message, cut to 50 characters. |
| Account.WafCookies | checkin.py:68-129 | A loaded page gives the filtered cookies. A failure on the page gives `None`. A failure to start the browser raises. |
| Account.BaseHeaders | checkin.py:230-242 | The caller-id header always carries the API user, overriding a fixed header of the same name. `Referer` and `Origin` are the provider domain. |
| Account.SetUp | checkin.py:207-223 | Unknown provider or empty cookies stop quietly. A browser that fails to start raises exactly when WAF cookies are needed. A provider without WAF is ready with the user's cookies as the jar. A WAF provider is ready only after a loaded page, with the filtered WAF cookies under the user's. A quiet stop happens only for an unknown provider, empty cookies, or a bootstrap that gave `None` or `{}`. |
| Account.CheckInAccount | checkin.py:204-273 | Early exits return `(False, None)`. A browser start failure escapes. Automatic check-in reports success. A manual check-in reports its verdict with the balance outcome. An exception in the check-in step returns `(False, None)`. |
| Account.CheckInAccountRequests | checkin.py:221-257 | No request is issued before the session exists. A check-in provider issues exactly one POST, others none. One balance GET follows, skipped only when the check-in step raised, and no GET precedes a POST. |
| Account.Requests | checkin.py:243-256 | Without a ready session nothing is sent. Every request of a ready session sends its merged cookie jar. The POST goes to the sign-in path with the check-in headers, the GET to the user-info path with the base headers. |
| Account.CheckInAccountRequestContents | checkin.py:226-256 | Every event of an account's trace other than the browser visit belongs to a ready session. It sends the merged jar that `Account.SetUp` built, goes to the provider's sign-in or user-info path, and carries the caller-id header. |
| Account.RequestCounts | checkin.py:243-257 | Once the session is ready, a check-in provider issues one POST and the others none. The balance GET is issued unless the check-in step raised, and never before the POST. Without a session nothing is sent. |
| Account.ConfigurationFailures | checkin.py:209-219 | An unknown provider or an empty cookie dict returns `(False, None)` without touching the browser or the network. |
| Account.BootstrapFailures | checkin.py:158-163 | A failed login page, a missing required cookie, or an empty list of required names returns `(False, None)` after a single browser visit. |
| Account.BootstrapSuccess | checkin.py:154-167 | When every required cookie is present, the session is ready and its cookies are the WAF ones under the user's. |
| Fingerprint.Sort | checkin.py:49 | `sort_keys` produces a permutation of the entries in strictly increasing key order. |
| Fingerprint.SortedUnique | checkin.py:49 | Two key-sorted lists with the same entries are equal, so the sorted order does not depend on the insertion order. |
| Fingerprint.BelowTotal | checkin.py:49 | Python's string order compares any two distinct keys. |
| Fingerprint.BelowTransitive | checkin.py:49 | Python's string order is transitive. |
| Fingerprint.QuotaMapEntries | checkin.py:48 | The projected entries are exactly the key/quota pairs of the quota dict. |
| Fingerprint.ParseSerialize | checkin.py:49 | The compact JSON text of the sorted entries reads back as those entries. |
| Fingerprint.HashInputDependsOnlyOnQuotas | checkin.py:46-50 | Balance dicts with the same quota per key give the same hashed text, whatever the order and the used amounts. |
| Fingerprint.HashInputDeterminesQuotas | checkin.py:46-50 | Dicts whose hashed texts are equal have the same quota per key. |
| Batch.StepFor | checkin.py:330-375 | A crashed account fails. Its row note is the first 50 characters of the message, and its paragraph is `[FAIL] <name> exception: <note>...`. Otherwise the paragraph is `[SUCCESS]` or `[FAIL]` and the name, followed by the balance display or by `Error: ` and the user-info error. The row note is `OK` or `Failed` unless a user-info error replaces it. A balance is recorded exactly when the user info succeeded. |
| Batch.AccountKeyInjective | checkin.py:328 | Different positions get different `account_<n>` keys. |
| Batch.BalancesOfEntries | checkin.py:350-353 | The balances dict has one entry per account whose user info succeeded, under that account's key, and no key twice. |
| Batch.SavedTextTracksQuotas | checkin.py:381-386 | Two runs save the same fingerprint text exactly when every account has the same quota in both. |
| Batch.NotificationHasEveryNote | checkin.py:389-395 | Every account's paragraph appears in the notification. |
| Batch.SuccessCountPositive | checkin.py:405 | The success count is positive exactly when some account succeeded. |
| Batch.Tally | checkin.py:322-375 | The loop counts the succeeded accounts and keeps one row and one note per account, in order. It collects the balances under their keys. |
| Batch.Aggregate | checkin.py:378-405 | After the loop the notification is the notes, a blank line, then the stats line and time. The fingerprint text is kept only when some balance was read. The exit code is 0 exactly when some account succeeded, 1 otherwise. |
| Batch.RunBatch | checkin.py:310-405 | No accounts gives exit code 1 with no notification. Otherwise every account is processed in turn and the report is as `Batch.Aggregate` states. |

## Left out

- The browser: launch options, waiting for the page and its timeout fallback, and closing the context. Their only effect on the result is `Account.Bootstrap`.
- The network: `httpx` and HTTP/2. A reply or exception is an input. The failure of `httpx.Client(...)` itself, before the `try` at checkin.py:225, is not modelled.
- Http.Event: the balance GET carries the merged jar. Cookies that the POST reply sets, which `httpx.Client` would keep and send with the GET, are not modelled; replies have no headers.
- `asyncio.sleep` after a check-in, and all `print` logging. Neither changes a result.
- Reading and writing the fingerprint file (checkin.py:26-43) and comparing with the previous value (checkin.py:384-386). The comparison is only logged.
- The SHA-256 digest and its 16-character cut. The model stops at the text that is hashed.
- The markdown of `write_github_summary` (checkin.py:276-298). The rows it renders are modelled.
- `notify.push_message`, loading the configuration and the accounts, and `get_display_name`. The account name and the provider table are inputs. `need_notify` is always true, so the notification is always sent.
- `run_main`'s handling of interrupts and stray exceptions (checkin.py:408-417).
- Money.ToHundredths: JSON numbers are integers or booleans. A fractional raw quota, and the binary rounding of `round()` at exact ties, are not modelled.
- Money.ToHundredths: from about 2^34 units (raw about 8.6·10^15) the double `raw / 500000` is off by more than half a raw unit. An amount just above a tie, such as `5000q + 2501` raw, can then round down in Python while the model rounds it up. Such amounts are not modelled.
- Money.ToHundredths: a raw amount from -2499 to -1 rounds to the float `-0.0` in Python. The model has one zero, so it gives 0 here.
- Money.Format: Python shows the `-0.0` above as `$-0.0`, and `json.dumps` writes `-0.0` into the fingerprint text. The model writes `0.0` for both.
- Money.Format: amounts of 2^46 (about 7·10^13) units and above are not modelled. There a double no longer holds every hundredth, and from 10^16 Python prints in exponent form. The model prints every hundredth exactly.
- Batch.SavedTextTracksQuotas: it holds for the model's quotas, which have one zero. In Python `-0.0 == 0.0` while the saved texts differ, so a quota rounded to `-0.0` in one run and `0.0` in another changes the text.
- CheckIn.Classify: a JSON number is an integer or a boolean. Python also accepts floats, so `{"ret": 1.0}` and `{"code": 0.0}` succeed there. The model cannot express those bodies.
- Text.Lower: only ASCII letters are lower-cased.
- Fingerprint.Serialize: keys are written without JSON escaping. Every key the loop stores is `account_<n>`, which needs none.
- UserInfo.GetUserInfo: the text of a JSON decode error is an input, not derived from the body.

## Behaviour of the code worth knowing

- Blanks around `=` in a cookie segment are kept. Only the ends of each segment are stripped, so `"a = 1"` gives the key `"a "` and the value `" 1"` (`CookieExamples.BlanksAroundEqualsKept`).
- An exception during the check-in POST skips the balance fetch. `check_in_account` catches it and returns `(False, None)` (`Account.CheckInAccount`).
- A bootstrap failure returns `(False, None)`, so its row note is just `Failed` and its paragraph is `[FAIL]` and the name. A failed check-in still fetches the balance. When that read fails, the user-info error becomes the row note. When it succeeds, the row note stays `Failed` and the paragraph shows the balance (`Batch.StepFor`).
- A failure to start the browser is raised before `check_in_account`'s `try`. It reaches `main`, which reports it as an account exception (`Account.SetUp`, `Batch.StepFor`).
- A WAF provider with an empty list of required cookie names always fails: the filter returns `{}`, which is falsy (`Account.BootstrapFailures`).

=== FILE: account.dfy ===
/** `check_in_account`: the per-account state machine. The provider lookup,
    the browser and the two HTTP replies are inputs; the requests the script
    would issue are returned as a trace. */
module Account {
  import opened Base
  import opened Cookies
  import opened Http
  import opened CheckIn
  import opened UserInfo

  /** A provider profile from `utils.config`: where to send requests, which
      header carries the caller id, and the two switches the script asks
      (`needs_manual_check_in`, `needs_waf_cookies`). */
  datatype Provider = Provider(
    domain: string,
    loginPath: string,
    signInPath: string,
    userInfoPath: string,
    apiUserKey: string,
    manualCheckIn: bool,
    needsWaf: bool,
    wafCookieNames: seq<string>)

  /** One configured account; `name` is what `get_display_name(i)` gives for its position. */
  datatype AccountConfig = AccountConfig(name: string, provider: string, apiUser: string, cookies: Payload)

  /** What the headless browser did: loaded the login page and reported its
      cookies; failed while on the page (caught, the bootstrap yields `None`);
      or failed to start (not caught, the exception leaves `check_in_account`). */
  datatype Bootstrap = PageLoaded(cookies: seq<BrowserCookie>) | PageFailed(message: string) | LaunchFailed(message: string)

  /** The outside world as one account sees it. */
  datatype World = World(bootstrap: Bootstrap, checkInReply: Call<Response>, userInfoReply: Call<Response>)

  /** What `check_in_account` produced: the pair `(success, user_info)` it
      returns, or the message of an exception that escaped it. */
  datatype Outcome = Finished(success: bool, info: Option<UserInfo>) | Crashed(message: string)

  datatype Run = Run(outcome: Outcome, trace: seq<Event>)

  /** `get_waf_cookies_with_playwright` given what the browser did. */
  function WafCookies(bootstrap: Bootstrap, required: seq<string>): (r: Call<Option<Jar>>)
    ensures bootstrap.PageLoaded? ==> r == Returned(FilterWafCookies(bootstrap.cookies, required))
    ensures bootstrap.PageFailed? ==> r == Returned(None)
    ensures r.Raised? <==> bootstrap.LaunchFailed?
  {
    match bootstrap
    case PageLoaded(cookies) => Returned(FilterWafCookies(cookies, required))
    case PageFailed(_) => Returned(None)
    case LaunchFailed(message) => Raised(message)
  }

  const UserAgent: string :=
    "Mozilla/5.0 (Windows NT 10.0; Win64; x64) AppleWebKit/537.36 (KHTML, like Gecko) Chrome/138.0.0.0 Safari/537.36"

  /** The header dict of `check_in_account`; the caller-id header is written
      last, so it wins over a fixed header of the same name. */
  function BaseHeaders(provider: Provider, apiUser: string): (h: Headers)
    ensures provider.apiUserKey in h && h[provider.apiUserKey] == apiUser
    ensures "Referer" in h && "Origin" in h
    ensures provider.apiUserKey != "Referer" ==> h["Referer"] == provider.domain
    ensures provider.apiUserKey != "Origin" ==> h["Origin"] == provider.domain
  {
    map[
      "User-Agent" := UserAgent,
      "Accept" := "application/json, text/plain, */*",
      "Accept-Language" := "zh-CN,zh;q=0.9,en;q=0.8",
      "Accept-Encoding" := "gzip, deflate, br, zstd",
      "Referer" := provider.domain,
      "Origin" := provider.domain,
      "Connection" := "keep-alive",
      "Sec-Fetch-Dest" := "empty",
      "Sec-Fetch-Mode" := "cors",
      "Sec-Fetch-Site" := "same-origin"
    ][provider.apiUserKey := apiUser]
  }

  /** How far the account gets before any HTTP request: a session with its
      cookie jar, a quiet failure, or an exception. */
  datatype Setup = Ready(provider: Provider, jar: Jar) | Abort | Crash(message: string)

  /** Resolve the provider, parse the cookies, bootstrap and merge. */
  function SetUp(account: AccountConfig, providers: map<string, Provider>, world: World): (s: Setup)
    ensures account.provider !in providers ==> s == Abort
    ensures account.provider in providers && ParseCookies(account.cookies) == map[] ==> s == Abort
    ensures s.Crash? <==> account.provider in providers && ParseCookies(account.cookies) != map[]
                          && providers[account.provider].needsWaf && world.bootstrap.LaunchFailed?
    ensures s.Ready? ==> s.provider == providers[account.provider]
    ensures s.Ready? ==> s.jar != map[] && forall k :: k in ParseCookies(account.cookies) ==>
                           k in s.jar && s.jar[k] == ParseCookies(account.cookies)[k]
    ensures s.Ready? && s.provider.needsWaf ==> world.bootstrap.PageLoaded?
    ensures s.Ready? && s.provider.needsWaf ==>
              var waf := FilterWafCookies(world.bootstrap.cookies, s.provider.wafCookieNames);
              waf.Some? && s.jar == waf.value + ParseCookies(account.cookies)
    ensures account.provider in providers && ParseCookies(account.cookies) != map[]
            && !providers[account.provider].needsWaf
            ==> s == Ready(providers[account.provider], ParseCookies(account.cookies))
    ensures s.Abort? ==>
              || account.provider !in providers
              || ParseCookies(account.cookies) == map[]
              || (providers[account.provider].needsWaf
                  && (var waf := WafCookies(world.bootstrap, providers[account.provider].wafCookieNames);
                      waf == Returned(None) || waf == Returned(Some(map[]))))
  {
    if account.provider !in providers then Abort
    else
      var provider := providers[account.provider];
      var user := ParseCookies(account.cookies);
      if user == map[] then Abort
      else
        var waf := if provider.needsWaf then WafCookies(world.bootstrap, provider.wafCookieNames) else Returned(None);
        match waf
        case Raised(message) => Crash(message)
        case Returned(wafJar) =>
          match PrepareCookies(provider.needsWaf, wafJar, user)
          case None => Abort
          case Some(jar) => if jar == map[] then Abort else Ready(provider, jar)
  }

  /** The browser visit made while setting up, if any. */
  function Visits(account: AccountConfig, providers: map<string, Provider>): seq<Event> {
    if account.provider in providers && ParseCookies(account.cookies) != map[] && providers[account.provider].needsWaf then
      var provider := providers[account.provider];
      [OpenBrowser(provider.domain + provider.loginPath)]
    else []
  }

  function CountPosts(trace: seq<Event>): nat {
    if |trace| == 0 then 0 else CountPosts(trace[..|trace| - 1]) + (if trace[|trace| - 1].Post? then 1 else 0)
  }

  function CountGets(trace: seq<Event>): nat {
    if |trace| == 0 then 0 else CountGets(trace[..|trace| - 1]) + (if trace[|trace| - 1].Get? then 1 else 0)
  }

  lemma {:induction false} CountAppend(a: seq<Event>, b: seq<Event>)
    ensures CountPosts(a + b) == CountPosts(a) + CountPosts(b)
    ensures CountGets(a + b) == CountGets(a) + CountGets(b)
  {
    if |b| > 0 {
      assert (a + b)[..|a + b| - 1] == a + b[..|b| - 1];
      CountAppend(a, b[..|b| - 1]);
    } else {
      assert a + b == a;
    }
  }

  lemma CountTwo(x: Event, y: Event)
    ensures CountPosts([x, y]) == (if x.Post? then 1 else 0) + (if y.Post? then 1 else 0)
    ensures CountGets([x, y]) == (if x.Get? then 1 else 0) + (if y.Get? then 1 else 0)
  {
    assert [x, y][..1] == [x];
    CountOne(x);
  }

  lemma CountOne(x: Event)
    ensures CountPosts([x]) == (if x.Post? then 1 else 0)
    ensures CountGets([x]) == (if x.Get? then 1 else 0)
  {
    assert [x][..0] == [];
  }

  lemma VisitsHaveNoRequests(account: AccountConfig, providers: map<string, Provider>)
    ensures CountPosts(Visits(account, providers)) == 0 && CountGets(Visits(account, providers)) == 0
    ensures forall i :: 0 <= i < |Visits(account, providers)| ==> Visits(account, providers)[i].OpenBrowser?
  {
    var v := Visits(account, providers);
    if |v| == 1 { assert v[..0] == []; }
  }

  /** An HTTP request of a session with `provider`, its cookie jar `jar` and
      the caller id `apiUser`: the check-in POST goes to the sign-in path with
      the check-in headers, the balance GET to the user-info path with the
      base headers, and both send the session's jar. */
  predicate Sends(e: Event, provider: Provider, jar: Jar, apiUser: string) {
    && !e.OpenBrowser?
    && e.cookies == jar
    && (e.Post? ==> e.url == provider.domain + provider.signInPath
                    && e.headers == CheckInHeaders(BaseHeaders(provider, apiUser)))
    && (e.Get? ==> e.url == provider.domain + provider.userInfoPath
                   && e.headers == BaseHeaders(provider, apiUser))
  }

  /** The HTTP requests made once the session is set up: the check-in POST
      for providers that need one, then the balance GET unless the POST raised. */
  function Requests(setup: Setup, apiUser: string, checkInReply: Call<Response>): (r: seq<Event>)
    ensures !setup.Ready? ==> r == []
    ensures setup.Ready? ==> forall i :: 0 <= i < |r| ==> Sends(r[i], setup.provider, setup.jar, apiUser)
  {
    match setup
    case Ready(provider, jar) =>
      var headers := BaseHeaders(provider, apiUser);
      var balanceGet := Get(provider.domain + provider.userInfoPath, headers, jar);
      var checkInPost := Post(provider.domain + provider.signInPath, CheckInHeaders(headers), jar);
      if !provider.manualCheckIn then [balanceGet]
      else if ExecuteCheckIn(checkInReply).Raised? then [checkInPost]
      else [checkInPost, balanceGet]
    case _ => []
  }

  lemma RequestCounts(setup: Setup, apiUser: string, checkInReply: Call<Response>)
    ensures var r := Requests(setup, apiUser, checkInReply);
            && (!setup.Ready? ==> CountPosts(r) == 0 && CountGets(r) == 0)
            && (setup.Ready? ==> CountPosts(r) == (if setup.provider.manualCheckIn then 1 else 0))
            && (setup.Ready? ==>
                  CountGets(r) == (if setup.provider.manualCheckIn && ExecuteCheckIn(checkInReply).Raised? then 0 else 1))
            && (forall i, j :: 0 <= i < j < |r| ==> !(r[i].Get? && r[j].Post?))
  {
    var r := Requests(setup, apiUser, checkInReply);
    if |r| == 1 {
      CountOne(r[0]);
      assert r == [r[0]];
    } else if |r| == 2 {
      CountTwo(r[0], r[1]);
      assert r == [r[0], r[1]];
    }
  }

  /** `check_in_account`. Early exits return `(False, None)`; an exception
      while starting the browser escapes; an automatic-check-in provider
      reports success; otherwise the flag is the check-in verdict, and an
      exception in the check-in step yields `(False, None)`. The balance
      outcome is the one of the GET whenever that GET is issued. */
  function CheckInAccount(account: AccountConfig, providers: map<string, Provider>, world: World): (run: Run)
    ensures var setup := SetUp(account, providers, world);
            && (setup.Abort? ==> run.outcome == Finished(false, None))
            && (setup.Crash? <==> run.outcome.Crashed?)
            && (setup.Crash? ==> run.outcome == Crashed(setup.message))
            && (setup.Ready? && !setup.provider.manualCheckIn ==>
                  run.outcome == Finished(true, Some(GetUserInfo(world.userInfoReply))))
            && (setup.Ready? && setup.provider.manualCheckIn && ExecuteCheckIn(world.checkInReply).Returned? ==>
                  run.outcome == Finished(ExecuteCheckIn(world.checkInReply).value, Some(GetUserInfo(world.userInfoReply))))
            && (setup.Ready? && setup.provider.manualCheckIn && ExecuteCheckIn(world.checkInReply).Raised? ==>
                  run.outcome == Finished(false, None))
  {
    var trace := Visits(account, providers) + Requests(SetUp(account, providers, world), account.apiUser, world.checkInReply);
    match SetUp(account, providers, world)
    case Abort => Run(Finished(false, None), trace)
    case Crash(message) => Run(Crashed(message), trace)
    case Ready(provider, jar) =>
      if provider.manualCheckIn then
        match ExecuteCheckIn(world.checkInReply)
        case Raised(_) => Run(Finished(false, None), trace)
        case Returned(success) => Run(Finished(success, Some(GetUserInfo(world.userInfoReply))), trace)
      else
        Run(Finished(true, Some(GetUserInfo(world.userInfoReply))), trace)
  }

  /** Which requests an account issues: none before the session exists; then
      at most one check-in POST, only for providers that need it, before a
      single balance GET, which is skipped only when the check-in step raised. */
  lemma CheckInAccountRequests(account: AccountConfig, providers: map<string, Provider>, world: World)
    ensures var setup := SetUp(account, providers, world);
            var trace := CheckInAccount(account, providers, world).trace;
            && (!setup.Ready? ==> CountPosts(trace) == 0 && CountGets(trace) == 0)
            && (setup.Ready? ==> CountPosts(trace) == (if setup.provider.manualCheckIn then 1 else 0))
            && (setup.Ready? ==>
                  CountGets(trace) == (if setup.provider.manualCheckIn && ExecuteCheckIn(world.checkInReply).Raised? then 0 else 1))
            && (forall i, j :: 0 <= i < j < |trace| ==> !(trace[i].Get? && trace[j].Post?))
  {
    var setup := SetUp(account, providers, world);
    var visits := Visits(account, providers);
    var requests := Requests(setup, account.apiUser, world.checkInReply);
    TraceShape(account, providers, world);
    VisitsHaveNoRequests(account, providers);
    RequestCounts(setup, account.apiUser, world.checkInReply);
    BrowserThenRequests(visits, requests);
  }

  /** What each request of an account carries: every event of the trace other
      than the browser visit belongs to a ready session, sends that session's
      merged cookie jar, and goes to the provider's sign-in (POST) or user-info
      (GET) path with the headers built for the account, caller id included. */
  lemma CheckInAccountRequestContents(account: AccountConfig, providers: map<string, Provider>, world: World)
    ensures var setup := SetUp(account, providers, world);
            var trace := CheckInAccount(account, providers, world).trace;
            forall i :: 0 <= i < |trace| && !trace[i].OpenBrowser? ==>
              && setup.Ready?
              && trace[i].cookies == setup.jar
              && Sends(trace[i], setup.provider, setup.jar, account.apiUser)
              && setup.provider.apiUserKey in trace[i].headers
  {
    var setup := SetUp(account, providers, world);
    TraceShape(account, providers, world);
    VisitsHaveNoRequests(account, providers);
    SessionTrace(setup, Visits(account, providers), Requests(setup, account.apiUser, world.checkInReply), account.apiUser);
  }

  /** Browser visits followed by the requests of a set-up outcome: a
      non-browser event only occurs after a ready set-up, and is one of its
      session's requests. */
  lemma SessionTrace(setup: Setup, visits: seq<Event>, requests: seq<Event>, apiUser: string)
    requires forall i :: 0 <= i < |visits| ==> visits[i].OpenBrowser?
    requires !setup.Ready? ==> requests == []
    requires setup.Ready? ==> forall i :: 0 <= i < |requests| ==> Sends(requests[i], setup.provider, setup.jar, apiUser)
    ensures forall i :: 0 <= i < |visits + requests| && !(visits + requests)[i].OpenBrowser? ==>
              && setup.Ready?
              && (visits + requests)[i].cookies == setup.jar
              && Sends((visits + requests)[i], setup.provider, setup.jar, apiUser)
              && setup.provider.apiUserKey in (visits + requests)[i].headers
  {
    if setup.Ready? {
      BrowserThenSends(visits, requests, setup.provider, setup.jar, apiUser);
    } else {
      assert visits + requests == visits;
    }
  }

  /** Browser visits followed by requests of one session: every non-browser
      event of the whole is one of those requests. */
  lemma BrowserThenSends(visits: seq<Event>, requests: seq<Event>, provider: Provider, jar: Jar, apiUser: string)
    requires forall i :: 0 <= i < |visits| ==> visits[i].OpenBrowser?
    requires forall i :: 0 <= i < |requests| ==> Sends(requests[i], provider, jar, apiUser)
    ensures forall i :: 0 <= i < |visits + requests| && !(visits + requests)[i].OpenBrowser? ==>
              Sends((visits + requests)[i], provider, jar, apiUser)
              && provider.apiUserKey in (visits + requests)[i].headers
  {
    var trace := visits + requests;
    forall i | 0 <= i < |trace| && !trace[i].OpenBrowser?
      ensures Sends(trace[i], provider, jar, apiUser) && provider.apiUserKey in trace[i].headers
    {
      if i >= |visits| {
        assert trace[i] == requests[i - |visits|];
      }
    }
  }

  lemma TraceShape(account: AccountConfig, providers: map<string, Provider>, world: World)
    ensures CheckInAccount(account, providers, world).trace
            == Visits(account, providers) + Requests(SetUp(account, providers, world), account.apiUser, world.checkInReply)
  {
  }

  /** Browser visits followed by requests: the requests' counts and order carry over. */
  lemma BrowserThenRequests(visits: seq<Event>, requests: seq<Event>)
    requires forall i :: 0 <= i < |visits| ==> visits[i].OpenBrowser?
    requires CountPosts(visits) == 0 && CountGets(visits) == 0
    requires forall i, j :: 0 <= i < j < |requests| ==> !(requests[i].Get? && requests[j].Post?)
    ensures CountPosts(visits + requests) == CountPosts(requests)
    ensures CountGets(visits + requests) == CountGets(requests)
    ensures forall i, j :: 0 <= i < j < |visits + requests| ==> !((visits + requests)[i].Get? && (visits + requests)[j].Post?)
  {
    CountAppend(visits, requests);
    var trace := visits + requests;
    forall i, j | 0 <= i < j < |trace| ensures !(trace[i].Get? && trace[j].Post?) {
      if i >= |visits| {
        assert trace[i] == requests[i - |visits|] && trace[j] == requests[j - |visits|];
      } else {
        assert trace[i] == visits[i];
      }
    }
  }

  /** Unknown provider or no usable cookie: `(False, None)`, and neither the
      browser nor the network is touched. */
  lemma ConfigurationFailures(account: AccountConfig, providers: map<string, Provider>, world: World)
    requires account.provider !in providers || ParseCookies(account.cookies) == map[]
    ensures CheckInAccount(account, providers, world) == Run(Finished(false, None), [])
  {
    AbortRun(account, providers, world);
  }

  /** A quiet stop during set-up returns `(False, None)` after the browser visit, if any. */
  lemma AbortRun(account: AccountConfig, providers: map<string, Provider>, world: World)
    requires SetUp(account, providers, world) == Abort
    ensures CheckInAccount(account, providers, world) == Run(Finished(false, None), Visits(account, providers))
  {
    TraceShape(account, providers, world);
    assert Requests(Abort, account.apiUser, world.checkInReply) == [];
  }

  /** A provider that needs WAF cookies, whose login page failed or lacked a
      required cookie: `(False, None)` after the browser visit, with no HTTP
      request. With an empty list of required names the filter yields `{}`,
      which is falsy, so such a provider always fails here too. */
  lemma BootstrapFailures(account: AccountConfig, providers: map<string, Provider>, world: World)
    requires account.provider in providers && ParseCookies(account.cookies) != map[]
    requires var provider := providers[account.provider];
             && provider.needsWaf
             && (|| world.bootstrap.PageFailed?
                 || (world.bootstrap.PageLoaded? &&
                     exists n :: n in provider.wafCookieNames &&
                       forall i :: 0 <= i < |world.bootstrap.cookies| ==> !Supplies(world.bootstrap.cookies[i], n))
                 || (world.bootstrap.PageLoaded? && provider.wafCookieNames == []))
    ensures var provider := providers[account.provider];
            CheckInAccount(account, providers, world) ==
              Run(Finished(false, None), [OpenBrowser(provider.domain + provider.loginPath)])
  {
    var provider := providers[account.provider];
    if world.bootstrap.PageLoaded? && provider.wafCookieNames == [] {
      var waf := FilterWafCookies(world.bootstrap.cookies, []);
      assert waf.Some? && waf.value.Keys == {};
    }
    assert SetUp(account, providers, world) == Abort;
    AbortRun(account, providers, world);
  }

  /** With every required WAF cookie present the session is set up, and its
      jar holds the user's cookies over the WAF ones (the jar every request
      sends, by `CheckInAccountRequestContents`). */
  lemma BootstrapSuccess(account: AccountConfig, providers: map<string, Provider>, world: World)
    requires account.provider in providers && ParseCookies(account.cookies) != map[]
    requires var provider := providers[account.provider];
             && provider.needsWaf && world.bootstrap.PageLoaded?
             && FilterWafCookies(world.bootstrap.cookies, provider.wafCookieNames).Some?
             && provider.wafCookieNames != []
    ensures var setup := SetUp(account, providers, world);
            var waf := FilterWafCookies(world.bootstrap.cookies, providers[account.provider].wafCookieNames).value;
            && setup.Ready?
            && setup.jar.Keys == waf.Keys + ParseCookies(account.cookies).Keys
            && forall k :: k in waf && k !in ParseCookies(account.cookies) ==> setup.jar[k] == waf[k]
  {
    var provider := providers[account.provider];
    var waf := FilterWafCookies(world.bootstrap.cookies, provider.wafCookieNames).value;
    var user := ParseCookies(account.cookies);
    assert provider.wafCookieNames[0] in waf;
    assert WafCookies(world.bootstrap, provider.wafCookieNames) == Returned(Some(waf));
    var prepared := PrepareCookies(true, Some(waf), user);
    assert prepared == Some(waf + user);
    assert prepared.value != map[] by { assert provider.wafCookieNames[0] in prepared.value; }
    assert SetUp(account, providers, world) == Ready(provider, waf + user);
  }
}

=== FILE: base.dfy ===
/** Small failure-carrying datatypes shared by the whole model. */
module Base {

  /** Python's `None`-or-value. */
  datatype Option<+T> = None | Some(value: T)

  /** The result of a Python call that either returns a value or raises an
      exception; the exception is known only by its message `str(e)`. */
  datatype Call<+T> = Returned(value: T) | Raised(message: string)
}

=== FILE: batch.dfy ===
/** The loop of `main`: every account in turn, one summary row and one
    notification paragraph each, the balances of the accounts whose user info
    was read, the notification text and the exit code. */
module Batch {
  import opened Base
  import opened Text
  import opened UserInfo
  import opened Account
  import opened Fingerprint

  /** A row of the GitHub summary table; a crashed account has no quota or
      used entry at all. */
  datatype Row = Row(name: string, success: bool, quota: Option<int>, used: Option<int>, note: string)

  /** What one pass of the loop body adds. */
  datatype Step = Step(success: bool, row: Row, note: string, balance: Option<Balance>)

  /** Exception text is cut to this many characters in the notes. */
  const MaxCrashText: nat := 50

  function Tag(success: bool): string {
    if success then "[SUCCESS]" else "[FAIL]"
  }

  /** The loop body for one account named `name` whose `check_in_account`
      ended with `outcome`. */
  function StepFor(name: string, outcome: Outcome): (s: Step)
    ensures s.success <==> outcome.Finished? && outcome.success
    ensures s.row.name == name && s.row.success == s.success
    ensures s.balance.Some? <==> outcome.Finished? && outcome.info.Some? && outcome.info.value.InfoOk?
    ensures s.balance.Some? ==>
      (s.balance.value == Balance(outcome.info.value.quota, outcome.info.value.used)
       && s.row.quota == Some(outcome.info.value.quota) && s.row.used == Some(outcome.info.value.used))
    ensures s.balance.None? ==> s.row.quota.None? && s.row.used.None?
    ensures outcome.Finished? ==> Tag(outcome.success) + " " + name <= s.note
    ensures outcome.Crashed? ==>
      (s.row.note == Prefix(outcome.message, MaxCrashText)
       && s.note == "[FAIL] " + name + " exception: " + s.row.note + "...")
    ensures outcome.Finished? && (outcome.info.None? || outcome.info.value.InfoOk?) ==>
      s.row.note == (if outcome.success then "OK" else "Failed")
    ensures outcome.Finished? && outcome.info.Some? && outcome.info.value.InfoErr? ==>
      s.row.note == outcome.info.value.error
    ensures outcome.Finished? && outcome.info.None? ==> s.note == Tag(outcome.success) + " " + name
    ensures outcome.Finished? && outcome.info.Some? && outcome.info.value.InfoOk? ==>
      s.note == Tag(outcome.success) + " " + name + "\n" + outcome.info.value.display
    ensures outcome.Finished? && outcome.info.Some? && outcome.info.value.InfoErr? ==>
      s.note == Tag(outcome.success) + " " + name + "\nError: " + outcome.info.value.error
  {
    match outcome
    case Crashed(message) =>
      var text := Prefix(message, MaxCrashText);
      Step(false, Row(name, false, None, None, text), "[FAIL] " + name + " exception: " + text + "...", None)
    case Finished(success, info) =>
      var head := Tag(success) + " " + name;
      var plain := if success then "OK" else "Failed";
      match info
      case None => Step(success, Row(name, success, None, None, plain), head, None)
      case Some(InfoOk(quota, used, display)) =>
        Step(success, Row(name, success, Some(quota), Some(used), plain), head + "\n" + display, Some(Balance(quota, used)))
      case Some(InfoErr(error)) =>
        Step(success, Row(name, success, None, None, error), head + "\nError: " + error, None)
  }

  /** The loop bodies of all accounts, in order. */
  function Steps(accounts: seq<(AccountConfig, World)>, providers: map<string, Provider>): (r: seq<Step>)
    ensures |r| == |accounts|
  {
    seq(|accounts|, i requires 0 <= i < |accounts| =>
      StepFor(accounts[i].0.name, CheckInAccount(accounts[i].0, providers, accounts[i].1).outcome))
  }

  function Notes(steps: seq<Step>): (r: seq<string>)
    ensures |r| == |steps|
    ensures forall i :: 0 <= i < |steps| ==> r[i] == steps[i].note
  {
    seq(|steps|, i requires 0 <= i < |steps| => steps[i].note)
  }

  /** `account_{i + 1}`. */
  function AccountKey(i: nat): string {
    "account_" + NatToString(i + 1)
  }

  lemma AccountKeyInjective(i: nat, j: nat)
    requires AccountKey(i) == AccountKey(j)
    ensures i == j
  {
    assert AccountKey(i)[8..] == NatToString(i + 1);
    assert AccountKey(j)[8..] == NatToString(j + 1);
    NatToStringInjective(i + 1, j + 1);
  }

  lemma AccountKeySimple(i: nat)
    ensures SimpleKey(AccountKey(i))
  {
    var k := AccountKey(i);
    forall c | 0 <= c < |k| ensures ('a' <= k[c] <= 'z') || ('A' <= k[c] <= 'Z') || IsDigit(k[c]) || k[c] == '_' {
      if c >= 8 { assert k[c] == NatToString(i + 1)[c - 8]; }
    }
  }

  /** `current_balances` after the loop has run over `steps`. */
  function BalancesOf(steps: seq<Step>): Balances {
    if |steps| == 0 then []
    else
      var n := |steps| - 1;
      BalancesOf(steps[..n]) + match steps[n].balance
        case None => []
        case Some(b) => [(AccountKey(n), b)]
  }

  /** Exactly the accounts whose user info was read have a balance, under
      their own key, and no key appears twice. */
  lemma BalancesOfEntries(steps: seq<Step>)
    ensures DistinctKeys(BalancesOf(steps))
    ensures forall e :: e in BalancesOf(steps) ==>
      exists i :: 0 <= i < |steps| && e.0 == AccountKey(i) && steps[i].balance == Some(e.1)
    ensures forall i :: 0 <= i < |steps| && steps[i].balance.Some? ==>
      (AccountKey(i), steps[i].balance.value) in BalancesOf(steps)
  {
    BalancesOfSources(steps);
    BalancesOfComplete(steps);
    BalancesOfDistinct(steps);
  }

  /** Every stored balance is some account's, under its key. */
  lemma {:induction false} BalancesOfSources(steps: seq<Step>)
    ensures forall e :: e in BalancesOf(steps) ==>
      exists i :: 0 <= i < |steps| && e.0 == AccountKey(i) && steps[i].balance == Some(e.1)
  {
    if |steps| > 0 {
      var n := |steps| - 1;
      var prefix := steps[..n];
      BalancesOfSources(prefix);
      var before := BalancesOf(prefix);
      forall e | e in BalancesOf(steps)
        ensures exists i :: 0 <= i < |steps| && e.0 == AccountKey(i) && steps[i].balance == Some(e.1)
      {
        if e in before {
          var i :| 0 <= i < |prefix| && e.0 == AccountKey(i) && prefix[i].balance == Some(e.1);
          assert steps[i] == prefix[i];
        } else {
          assert e.0 == AccountKey(n) && steps[n].balance == Some(e.1);
        }
      }
    }
  }

  /** Every account with a balance has it stored under its key. */
  lemma {:induction false} BalancesOfComplete(steps: seq<Step>)
    ensures forall i :: 0 <= i < |steps| && steps[i].balance.Some? ==>
      (AccountKey(i), steps[i].balance.value) in BalancesOf(steps)
  {
    if |steps| > 0 {
      var n := |steps| - 1;
      var prefix := steps[..n];
      BalancesOfComplete(prefix);
      forall i | 0 <= i < |steps| && steps[i].balance.Some?
        ensures (AccountKey(i), steps[i].balance.value) in BalancesOf(steps)
      {
        if i < n { assert prefix[i] == steps[i]; }
      }
    }
  }

  /** No key is stored twice. */
  lemma {:induction false} BalancesOfDistinct(steps: seq<Step>)
    ensures DistinctKeys(BalancesOf(steps))
  {
    if |steps| > 0 {
      var n := |steps| - 1;
      var prefix := steps[..n];
      BalancesOfDistinct(prefix);
      BalancesOfSources(prefix);
      var before := BalancesOf(prefix);
      var all := BalancesOf(steps);
      forall i, j | 0 <= i < j < |all| ensures all[i].0 != all[j].0 {
        if j >= |before| {
          assert all[j].0 == AccountKey(n);
          assert all[i] == before[i];
          var k :| 0 <= k < |prefix| && all[i].0 == AccountKey(k) && prefix[k].balance == Some(all[i].1);
          if all[i].0 == all[j].0 { AccountKeyInjective(k, n); }
        } else {
          assert all[i] == before[i] && all[j] == before[j];
        }
      }
    }
  }

  lemma BalancesOfSimpleKeys(steps: seq<Step>)
    ensures forall i :: 0 <= i < |BalancesOf(steps)| ==> SimpleKey(BalancesOf(steps)[i].0)
  {
    BalancesOfEntries(steps);
    var all := BalancesOf(steps);
    forall i | 0 <= i < |all| ensures SimpleKey(all[i].0) {
      assert all[i] in all;
      var j :| 0 <= j < |steps| && all[i].0 == AccountKey(j) && steps[j].balance == Some(all[i].1);
      AccountKeySimple(j);
    }
  }

  /** Two runs save the same text exactly when every account key has the same
      quota in both: the saved fingerprint changes with the quotas and with
      nothing else. */
  lemma SavedTextTracksQuotas(a: seq<Step>, b: seq<Step>)
    ensures DistinctKeys(BalancesOf(a)) && DistinctKeys(BalancesOf(b))
    ensures HashInput(BalancesOf(a)) == HashInput(BalancesOf(b)) <==> QuotaMap(BalancesOf(a)) == QuotaMap(BalancesOf(b))
  {
    BalancesOfEntries(a);
    BalancesOfEntries(b);
    BalancesOfSimpleKeys(a);
    BalancesOfSimpleKeys(b);
    if HashInput(BalancesOf(a)) == HashInput(BalancesOf(b)) {
      HashInputDeterminesQuotas(BalancesOf(a), BalancesOf(b));
    }
    if QuotaMap(BalancesOf(a)) == QuotaMap(BalancesOf(b)) {
      HashInputDependsOnlyOnQuotas(BalancesOf(a), BalancesOf(b));
    }
  }

  /** `f'[STATS] Success: {success_count}/{total_count}'`. */
  function StatsLine(successCount: nat, total: nat): string {
    "[STATS] Success: " + NatToString(successCount) + "/" + NatToString(total)
  }

  /** `'\n\n'.join(['\n'.join(notes), '\n'.join(summary)])` */
  function Notification(notes: seq<string>, successCount: nat, total: nat, time: string): string {
    Join(notes, "\n") + "\n\n" + (StatsLine(successCount, total) + "\n" + "[TIME] " + time)
  }

  /** Every account's paragraph is part of the notification. */
  lemma NotificationHasEveryNote(notes: seq<string>, successCount: nat, total: nat, time: string, i: nat)
    requires i < |notes|
    ensures Contains(Notification(notes, successCount, total, time), notes[i])
  {
    JoinHasPart(notes, "\n", i);
    ContainsInPrefix(Join(notes, "\n"), "\n\n" + (StatsLine(successCount, total) + "\n" + "[TIME] " + time), notes[i]);
    assert Join(notes, "\n") + ("\n\n" + (StatsLine(successCount, total) + "\n" + "[TIME] " + time))
      == Notification(notes, successCount, total, time);
  }

  /** The observable result of `main`: the exit code, the summary table, the
      notification text (`None` when none is sent), `current_balances`, and
      the text whose digest is saved (`None` when nothing is saved). */
  datatype Report = Report(
    exitCode: int,
    rows: seq<Row>,
    notification: Option<string>,
    balances: Balances,
    hashInput: Option<string>)

  function SuccessSet(steps: seq<Step>, n: nat): set<nat>
    requires n <= |steps|
  {
    set i: nat | i < n && steps[i].success
  }

  /** `main` from the loaded accounts on; `time` is the clock reading. */
  method RunBatch(accounts: seq<(AccountConfig, World)>, providers: map<string, Provider>, time: string)
    returns (report: Report)
    ensures |accounts| == 0 ==> report == Report(1, [], None, [], None)
    ensures |accounts| > 0 ==> IsReport(Steps(accounts, providers), time, report)
  {
    if |accounts| == 0 {
      return Report(1, [], None, [], None);
    }
    report := Aggregate(Steps(accounts, providers), time);
  }

  /** What the loop and the code after it make of the loop bodies `steps`. */
  predicate IsReport(steps: seq<Step>, time: string, report: Report) {
    var successCount := |SuccessSet(steps, |steps|)|;
    && |report.rows| == |steps|
    && (forall i :: 0 <= i < |steps| ==> report.rows[i] == steps[i].row)
    && report.notification == Some(Notification(Notes(steps), successCount, |steps|, time))
    && report.balances == BalancesOf(steps)
    && DistinctKeys(report.balances)
    && report.hashInput == (if |report.balances| > 0 then Some(HashInput(report.balances)) else None)
    && (report.exitCode == 0 <==> exists i :: 0 <= i < |steps| && steps[i].success)
    && (report.exitCode == 0 || report.exitCode == 1)
  }

  /** What one more pass of the loop adds to the counters. */
  lemma TallyStep(steps: seq<Step>, i: nat)
    requires i < |steps|
    ensures |SuccessSet(steps, i + 1)| == |SuccessSet(steps, i)| + (if steps[i].success then 1 else 0)
    ensures Notes(steps[..i + 1]) == Notes(steps[..i]) + [steps[i].note]
    ensures BalancesOf(steps[..i + 1]) == BalancesOf(steps[..i]) + match steps[i].balance
      case None => []
      case Some(b) => [(AccountKey(i), b)]
  {
    SuccessSetStep(steps, i);
    assert steps[..i + 1][..i] == steps[..i];
    NotesStep(steps, i);
  }

  lemma SuccessSetStep(steps: seq<Step>, i: nat)
    requires i < |steps|
    ensures |SuccessSet(steps, i + 1)| == |SuccessSet(steps, i)| + (if steps[i].success then 1 else 0)
  {
    var before := SuccessSet(steps, i);
    var after := SuccessSet(steps, i + 1);
    var added: set<nat> := if steps[i].success then {i} else {};
    forall x: nat ensures x in after <==> x in before + added {
      if x == i {
        assert x !in before;
      }
    }
    assert after == before + added;
    assert i !in before;
  }

  lemma NotesStep(steps: seq<Step>, i: nat)
    requires i < |steps|
    ensures Notes(steps[..i + 1]) == Notes(steps[..i]) + [steps[i].note]
  {
    assert Notes(steps[..i + 1])[..i] == Notes(steps[..i]);
  }

  /** The `for` loop of `main` over the loop bodies `steps`. */
  method Tally(steps: seq<Step>) returns (successCount: nat, rows: seq<Row>, notes: seq<string>, balances: Balances)
    ensures successCount == |SuccessSet(steps, |steps|)|
    ensures |rows| == |steps| && forall j :: 0 <= j < |steps| ==> rows[j] == steps[j].row
    ensures notes == Notes(steps)
    ensures balances == BalancesOf(steps)
  {
    successCount, rows, notes, balances := 0, [], [], [];
    var i := 0;
    while i < |steps|
      invariant 0 <= i <= |steps|
      invariant |rows| == i && forall j :: 0 <= j < i ==> rows[j] == steps[j].row
      invariant notes == Notes(steps[..i])
      invariant successCount == |SuccessSet(steps, i)|
      invariant balances == BalancesOf(steps[..i])
    {
      TallyStep(steps, i);
      var step := steps[i];
      if step.success {
        successCount := successCount + 1;
      }
      rows := rows + [step.row];
      notes := notes + [step.note];
      if step.balance.Some? {
        balances := balances + [(AccountKey(i), step.balance.value)];
      }
      i := i + 1;
    }
    assert steps[..i] == steps;
  }

  /** Some account succeeded exactly when the success count is positive. */
  lemma SuccessCountPositive(steps: seq<Step>)
    ensures |SuccessSet(steps, |steps|)| > 0 <==> exists i :: 0 <= i < |steps| && steps[i].success
  {
    if |SuccessSet(steps, |steps|)| > 0 {
      var w :| w in SuccessSet(steps, |steps|);
      assert steps[w].success;
    }
    if exists i :: 0 <= i < |steps| && steps[i].success {
      var i :| 0 <= i < |steps| && steps[i].success;
      assert i in SuccessSet(steps, |steps|);
    }
  }

  method Aggregate(steps: seq<Step>, time: string) returns (report: Report)
    ensures IsReport(steps, time, report)
  {
    var successCount, rows, notes, balances := Tally(steps);
    BalancesOfEntries(steps);
    var hashInput: Option<string> := None;
    if |balances| > 0 {
      hashInput := Some(HashInput(balances));
    }
    SuccessCountPositive(steps);
    var exitCode := if successCount > 0 then 0 else 1;
    report := Report(exitCode, rows, Some(Notification(notes, successCount, |steps|, time)), balances, hashInput);
  }
}

=== FILE: checkin.dfy ===
/** `execute_check_in`: the check-in POST and how its response is read. */
module CheckIn {
  import opened Base
  import opened Text
  import opened Json
  import opened Http

  /** `headers.copy()` extended with the two headers of the check-in request;
      every other header is kept as it was. */
  function CheckInHeaders(headers: Headers): (r: Headers)
    ensures r.Keys == headers.Keys + {"Content-Type", "X-Requested-With"}
    ensures r["Content-Type"] == "application/json" && r["X-Requested-With"] == "XMLHttpRequest"
    ensures forall k :: k in headers && k != "Content-Type" && k != "X-Requested-With" ==> r[k] == headers[k]
  {
    headers["Content-Type" := "application/json"]["X-Requested-With" := "XMLHttpRequest"]
  }

  /** A decoded JSON object that reports a done check-in: `ret == 1`, or
      `code == 0`, or a truthy `success`, compared the Python way. */
  predicate ReportsSuccess(fields: map<string, Json>) {
    EqualsInt(Lookup(fields, "ret"), 1) || EqualsInt(Lookup(fields, "code"), 0) || Truthy(Lookup(fields, "success"))
  }

  /** How `execute_check_in` reads a response. A non-200 status is a failure;
      a decoded object is judged by `ReportsSuccess`; a decoded non-object
      makes `result.get` raise; an undecodable body succeeds when its
      lower-cased text contains `success`. */
  function Classify(response: Response): (r: Call<bool>)
    ensures response.status != 200 ==> r == Returned(false)
    ensures r.Raised? <==> response.status == 200 && response.body.Parsed? && !response.body.json.Obj?
    ensures r.Raised? ==> r.message == NoGetMessage(response.body.json)
    ensures response.status == 200 && response.body.Parsed? && response.body.json.Obj? ==>
              r == Returned(ReportsSuccess(response.body.json.fields))
    ensures response.status == 200 && response.body.NotJson? ==>
              r == Returned(Contains(Lower(response.body.text), "success"))
  {
    if response.status != 200 then Returned(false)
    else
      match response.body
      case Parsed(json) =>
        if json.Obj? then Returned(ReportsSuccess(json.fields)) else Raised(NoGetMessage(json))
      case NotJson(text, _) => Returned(Contains(Lower(text), "success"))
  }

  /** `execute_check_in` given what `client.post` did: an exception from the
      POST is not caught here and reaches the caller. */
  function ExecuteCheckIn(post: Call<Response>): (r: Call<bool>)
    ensures post.Raised? ==> r == Raised(post.message)
    ensures post.Returned? ==> r == Classify(post.value)
    ensures r == Returned(true) ==> post.Returned? && post.value.status == 200
  {
    match post
    case Raised(message) => Raised(message)
    case Returned(response) => Classify(response)
  }

  lemma LowerIdempotent(s: string)
    ensures Lower(Lower(s)) == Lower(s)
  {
  }

  /** The text test ignores letter case: upper-casing or lower-casing the body
      does not change the verdict. */
  lemma ClassifyTextIgnoresCase(text: string, decodeError: string)
    ensures Classify(Response(200, NotJson(text, decodeError))) == Classify(Response(200, NotJson(Lower(text), decodeError)))
  {
    LowerIdempotent(text);
  }

  /** `ret` may be `1` or `true`, since `True == 1` in Python. */
  lemma RetOneOrTrue()
    ensures Classify(Response(200, Parsed(Obj(map["ret" := Int(1)])))) == Returned(true)
    ensures Classify(Response(200, Parsed(Obj(map["ret" := Bool(true)])))) == Returned(true)
  {
  }

  /** `{"code": false}` counts as success, since `False == 0` in Python. */
  lemma CodeFalseSucceeds()
    ensures Classify(Response(200, Parsed(Obj(map["code" := Bool(false)])))) == Returned(true)
  {
  }

  /** Any non-empty string in `success` counts, even `"no"`. */
  lemma SuccessStringSucceeds()
    ensures Classify(Response(200, Parsed(Obj(map["success" := Str("no")])))) == Returned(true)
  {
    assert Truthy(Str("no"));
  }

  /** An object with none of the three markers, or a `null` one, is a failure. */
  lemma NoMarkerFails()
    ensures Classify(Response(200, Parsed(Obj(map["ret" := Int(0), "msg" := Str("done")])))) == Returned(false)
    ensures Classify(Response(200, Parsed(Obj(map["code" := Null])))) == Returned(false)
  {
  }

  /** A success body with another status is a failure. */
  lemma OtherStatusFails()
    ensures Classify(Response(500, Parsed(Obj(map["success" := Bool(true)])))) == Returned(false)
  {
  }

  /** A JSON list makes `result.get` raise an AttributeError. */
  lemma ListBodyRaises(items: seq<Json>)
    ensures Classify(Response(200, Parsed(Arr(items)))) == Raised("'list' object has no attribute 'get'")
  {
    assert Classify(Response(200, Parsed(Arr(items)))) == Raised(NoGetMessage(Arr(items)));
    NoGetMessageOfList(items);
  }

  /** An HTML page saying `SUCCESS` counts as a done check-in.
      Input pinned by the precondition, as in `CookieExamples`. */
  lemma ClassifyTextExample(text: string)
    requires text == "<b>SUCCESS</b>"
    ensures Classify(Response(200, NotJson(text, ""))) == Returned(true)
  {
    assert Lower(text)[3..10] == "success";
    ContainsAt(Lower(text), "success", 3);
  }
}

=== FILE: cookies.dfy ===
/** Cookie handling of `checkin.py`: parsing the configured cookie payload
    (`parse_cookies`), picking the anti-bot ("WAF") cookies out of the
    browser's cookie list, and merging both sets (`prepare_cookies`). */
module Cookies {
  import opened Base
  import opened Text

  /** A cookie mapping, name to value. */
  type Jar = map<string, string>

  // ---------------------------------------------------------------------------
  // Building a dict by successive assignments
  // ---------------------------------------------------------------------------

  /** True when the optional assignment `e` writes key `k`. */
  predicate Assigns(e: Option<(string, string)>, k: string) {
    e.Some? && e.value.0 == k
  }

  /** The dict obtained by starting from `{}` and performing, in order, the
      assignments `d[key] = value` that are present in `entries`. */
  function Overlay(entries: seq<Option<(string, string)>>): (jar: Jar)
    ensures forall k :: k in jar <==> exists i :: 0 <= i < |entries| && Assigns(entries[i], k)
  {
    if |entries| == 0 then map[]
    else
      var jar := Overlay(entries[..|entries| - 1]);
      var last := entries[|entries| - 1];
      assert forall i :: 0 <= i < |entries| - 1 ==> entries[..|entries| - 1][i] == entries[i];
      if last.Some? then jar[last.value.0 := last.value.1] else jar
  }

  /** The value kept for a key is the one of the last assignment to that key. */
  lemma {:induction false} OverlayLastWins(entries: seq<Option<(string, string)>>, i: nat, k: string)
    requires i < |entries| && Assigns(entries[i], k)
    requires forall j :: i < j < |entries| ==> !Assigns(entries[j], k)
    ensures k in Overlay(entries) && Overlay(entries)[k] == entries[i].value.1
  {
    if i < |entries| - 1 {
      var prefix := entries[..|entries| - 1];
      assert prefix[i] == entries[i];
      forall j | i < j < |prefix| ensures !Assigns(prefix[j], k) {
        assert prefix[j] == entries[j];
      }
      OverlayLastWins(prefix, i, k);
    }
  }

  /** Every value in the dict comes from an assignment that no later one overrides. */
  lemma {:induction false} OverlaySource(entries: seq<Option<(string, string)>>, k: string)
    requires k in Overlay(entries)
    ensures exists i :: 0 <= i < |entries| && entries[i] == Some((k, Overlay(entries)[k]))
                        && forall j :: i < j < |entries| ==> !Assigns(entries[j], k)
  {
    var last := entries[|entries| - 1];
    if Assigns(last, k) {
      assert entries[|entries| - 1] == Some((k, Overlay(entries)[k]));
    } else {
      var prefix := entries[..|entries| - 1];
      OverlaySource(prefix, k);
      var i :| 0 <= i < |prefix| && prefix[i] == Some((k, Overlay(prefix)[k]))
               && forall j :: i < j < |prefix| ==> !Assigns(prefix[j], k);
      assert entries[i] == prefix[i];
      forall j | i < j < |entries| ensures !Assigns(entries[j], k) {
        if j < |prefix| { assert prefix[j] == entries[j]; }
      }
    }
  }

  // ---------------------------------------------------------------------------
  // parse_cookies
  // ---------------------------------------------------------------------------

  /** The configured cookie payload: a JSON object, a `;`-separated string,
      or a value of some other type. */
  datatype Payload = Mapping(jar: Jar) | Raw(text: string) | Unsupported

  /** What one `;`-segment contributes: nothing unless it contains `=`; then
      the stripped segment cut at its first `=` (so the value may hold `=`,
      and blanks next to the `=` are kept). */
  function SegmentEntry(segment: string): (e: Option<(string, string)>)
    ensures e.Some? <==> '=' in segment
    ensures e.Some? ==> '=' !in e.value.0 && e.value.0 + "=" + e.value.1 == Strip(segment)
  {
    if '=' in segment then
      StripKeepsNonSpace(segment, '=');
      Some(SplitAtFirst(Strip(segment), '='))
    else None
  }

  function SegmentEntries(text: string): (entries: seq<Option<(string, string)>>)
    ensures |entries| == |Split(text, ';')|
    ensures forall i :: 0 <= i < |entries| ==> entries[i] == SegmentEntry(Split(text, ';')[i])
  {
    var segments := Split(text, ';');
    seq(|segments|, i requires 0 <= i < |segments| => SegmentEntry(segments[i]))
  }

  /** The dict the `;`-segments of `text` assign, in order. */
  function ParseCookieString(text: string): Jar {
    Overlay(SegmentEntries(text))
  }

  /** The parsed dict holds exactly the keys of the segments that contain `=`. */
  lemma ParsedCookieKeys(text: string)
    ensures forall k :: k in ParseCookieString(text) <==>
              exists i :: 0 <= i < |Split(text, ';')| && Assigns(SegmentEntry(Split(text, ';')[i]), k)
  {
    OverlayKeysOfSegments(SegmentEntries(text), Split(text, ';'));
  }

  lemma OverlayKeysOfSegments(entries: seq<Option<(string, string)>>, segments: seq<string>)
    requires |entries| == |segments|
    requires forall i :: 0 <= i < |segments| ==> entries[i] == SegmentEntry(segments[i])
    ensures forall k :: k in Overlay(entries) <==> exists i :: 0 <= i < |segments| && Assigns(SegmentEntry(segments[i]), k)
  {
    forall k ensures k in Overlay(entries) <==> exists i :: 0 <= i < |segments| && Assigns(SegmentEntry(segments[i]), k) {
      if k in Overlay(entries) {
        var i :| 0 <= i < |entries| && Assigns(entries[i], k);
        assert Assigns(SegmentEntry(segments[i]), k);
      }
      if exists i :: 0 <= i < |segments| && Assigns(SegmentEntry(segments[i]), k) {
        var i :| 0 <= i < |segments| && Assigns(SegmentEntry(segments[i]), k);
        assert Assigns(entries[i], k);
      }
    }
  }


  /** `parse_cookies`: a mapping passes through unchanged, a string becomes
      the dict its `;`-segments assign in order, anything else gives `{}`. */
  function ParseCookies(payload: Payload): (jar: Jar)
    ensures payload.Mapping? ==> jar == payload.jar
    ensures payload.Unsupported? ==> jar == map[]
    ensures payload.Raw? ==> jar == ParseCookieString(payload.text)
  {
    match payload
    case Mapping(jar) => jar
    case Raw(text) => ParseCookieString(text)
    case Unsupported => map[]
  }

  /** Every parsed cookie comes from the last `;`-segment naming it, cut at the
      segment's first `=` after stripping the segment's ends. */
  lemma ParsedCookieSource(text: string, k: string)
    requires k in ParseCookies(Raw(text))
    ensures exists i :: 0 <= i < |Split(text, ';')|
              && '=' in Split(text, ';')[i]
              && Strip(Split(text, ';')[i]) == k + "=" + ParseCookies(Raw(text))[k]
              && '=' !in k
              && forall j :: i < j < |Split(text, ';')| ==> !Assigns(SegmentEntry(Split(text, ';')[j]), k)
  {
    var entries := SegmentEntries(text);
    assert ParseCookies(Raw(text)) == Overlay(entries);
    OverlaySource(entries, k);
    var i :| 0 <= i < |entries| && entries[i] == Some((k, Overlay(entries)[k]))
             && forall j :: i < j < |entries| ==> !Assigns(entries[j], k);
    assert SegmentEntry(Split(text, ';')[i]) == entries[i];
  }

  /** A segment with `=` sets its key, unless a later segment sets the same key. */
  lemma ParsedCookieFromLastSegment(text: string, i: nat)
    requires i < |Split(text, ';')| && '=' in Split(text, ';')[i]
    requires forall j :: i < j < |Split(text, ';')| ==>
               !Assigns(SegmentEntry(Split(text, ';')[j]), SegmentEntry(Split(text, ';')[i]).value.0)
    ensures var (k, v) := SegmentEntry(Split(text, ';')[i]).value;
            k in ParseCookies(Raw(text)) && ParseCookies(Raw(text))[k] == v
  {
    var entries := SegmentEntries(text);
    assert ParseCookies(Raw(text)) == Overlay(entries);
    OverlayLastWins(entries, i, entries[i].value.0);
  }

  // ---------------------------------------------------------------------------
  // The WAF filter of get_waf_cookies_with_playwright
  // ---------------------------------------------------------------------------

  /** One cookie as reported by the browser; `name` and `value` are read with
      `.get`, so either may be missing. */
  datatype BrowserCookie = BrowserCookie(name: Option<string>, value: Option<string>)

  /** The cookie carries a value for the name `n`. */
  predicate Supplies(c: BrowserCookie, n: string) {
    c.name == Some(n) && c.value.Some?
  }

  /** The assignment `waf_cookies[name] = value` one browser cookie performs, if any. */
  function RequiredEntry(c: BrowserCookie, required: seq<string>): (e: Option<(string, string)>)
    ensures e.Some? <==> c.name.Some? && c.name.value in required && c.value.Some?
    ensures e.Some? ==> e.value == (c.name.value, c.value.value)
  {
    if c.name.Some? && c.name.value in required && c.value.Some? then Some((c.name.value, c.value.value))
    else None
  }

  function RequiredEntries(cookies: seq<BrowserCookie>, required: seq<string>): (entries: seq<Option<(string, string)>>)
    ensures |entries| == |cookies|
    ensures forall i :: 0 <= i < |cookies| ==> entries[i] == RequiredEntry(cookies[i], required)
  {
    seq(|cookies|, i requires 0 <= i < |cookies| => RequiredEntry(cookies[i], required))
  }

  /** The filter: `None` exactly when some required name has no cookie with a
      value; otherwise the kept names are exactly the required ones. */
  function FilterWafCookies(cookies: seq<BrowserCookie>, required: seq<string>): (r: Option<Jar>)
    ensures r.None? <==> exists n :: n in required && forall i :: 0 <= i < |cookies| ==> !Supplies(cookies[i], n)
    ensures r.Some? ==> r.value.Keys == set n | n in required
  {
    var entries := RequiredEntries(cookies, required);
    var jar := Overlay(entries);
    assert forall n :: n in jar <==> n in required && exists i :: 0 <= i < |cookies| && Supplies(cookies[i], n) by {
      forall n ensures n in jar <==> n in required && exists i :: 0 <= i < |cookies| && Supplies(cookies[i], n) {
        if n in jar {
          var i :| 0 <= i < |entries| && Assigns(entries[i], n);
          assert Supplies(cookies[i], n);
        }
        if n in required && exists i :: 0 <= i < |cookies| && Supplies(cookies[i], n) {
          var i :| 0 <= i < |cookies| && Supplies(cookies[i], n);
          assert Assigns(entries[i], n);
        }
      }
    }
    if forall n :: n in required ==> n in jar then Some(jar) else None
  }

  /** Each kept WAF cookie has the value of the last browser cookie supplying it. */
  lemma WafCookieValue(cookies: seq<BrowserCookie>, required: seq<string>, i: nat)
    requires FilterWafCookies(cookies, required).Some?
    requires i < |cookies| && cookies[i].name.Some? && Supplies(cookies[i], cookies[i].name.value)
    requires cookies[i].name.value in required
    requires forall j :: i < j < |cookies| ==> !Supplies(cookies[j], cookies[i].name.value)
    ensures FilterWafCookies(cookies, required).value[cookies[i].name.value] == cookies[i].value.value
  {
    var entries := RequiredEntries(cookies, required);
    var n := cookies[i].name.value;
    OverlayLastWins(entries, i, n);
  }

  // ---------------------------------------------------------------------------
  // prepare_cookies
  // ---------------------------------------------------------------------------

  /** `prepare_cookies` once the bootstrap result `waf` is known (it is only
      asked for when `needsWaf`). It fails when WAF cookies are needed and the
      bootstrap gave `None` or `{}` (both falsy); otherwise it is `{**waf, **user}`. */
  function PrepareCookies(needsWaf: bool, waf: Option<Jar>, user: Jar): (r: Option<Jar>)
    ensures r.None? <==> needsWaf && (waf.None? || waf.value == map[])
    ensures r.Some? ==> r.value.Keys == user.Keys + (if needsWaf then waf.value.Keys else {})
    ensures r.Some? ==> forall k :: k in user ==> r.value[k] == user[k]
    ensures r.Some? && needsWaf ==> forall k :: k in waf.value && k !in user ==> r.value[k] == waf.value[k]
  {
    if needsWaf then
      if waf.None? || waf.value == map[] then None else Some(waf.value + user)
    else Some(user)
  }
}

/** Worked examples of `parse_cookies` on cookie strings. An example takes its
    input as a parameter fixed by the precondition rather than as a literal: the
    verifier evaluates recursive definitions on literals eagerly, and a parameter
    keeps the unfolding to what the proof asks for. Examples elsewhere do the same. */
module CookieExamples {
  import opened Base
  import opened Text
  import opened Cookies

  lemma SegmentEntryOf(segment: string, key: string, value: string)
    requires Strip(segment) == key + "=" + value && '=' !in key
    ensures SegmentEntry(segment) == Some((key, value))
  {
    SplitAtFirstUnique(Strip(segment), '=', key, value);
  }

  lemma SingleEntry(key: string, value: string)
    ensures Overlay([Some((key, value))]) == map[key := value]
  {
    assert [Some((key, value))][..0] == [];
  }

  lemma OverlayTwo(e0: (string, string), e1: (string, string))
    requires e0.0 != e1.0
    ensures Overlay([Some(e0), Some(e1)]) == map[e0.0 := e0.1, e1.0 := e1.1]
  {
    assert [Some(e0), Some(e1)][..1] == [Some(e0)];
    SingleEntry(e0.0, e0.1);
  }

  /** A string with one `=`-segment. */
  lemma ParseOne(text: string, key: string, value: string)
    requires ';' !in text
    requires Strip(text) == key + "=" + value && '=' !in key
    ensures ParseCookies(Raw(text)) == map[key := value]
  {
    SplitNoSeparator(text, ';');
    assert (key + "=" + value)[|key|] == '=';
    InStripInSource(text, '=');
    SegmentEntryOf(text, key, value);
    assert SegmentEntries(text) == [Some((key, value))];
    SingleEntry(key, value);
  }

  /** A string with two `=`-segments with different keys. */
  lemma ParseTwo(text: string, s0: string, s1: string, k0: string, v0: string, k1: string, v1: string)
    requires Split(text, ';') == [s0, s1]
    requires '=' in s0 && Strip(s0) == k0 + "=" + v0 && '=' !in k0
    requires '=' in s1 && Strip(s1) == k1 + "=" + v1 && '=' !in k1
    requires k0 != k1
    ensures ParseCookies(Raw(text)) == map[k0 := v0, k1 := v1]
  {
    SegmentEntryOf(s0, k0, v0);
    SegmentEntryOf(s1, k1, v1);
    assert SegmentEntries(text) == [Some((k0, v0)), Some((k1, v1))];
    OverlayTwo((k0, v0), (k1, v1));
  }

  lemma SplitTwoCookies()
    ensures Split("a=1; b=2", ';') == ["a=1", " b=2"]
  {
    assert Join(["a=1", " b=2"], ";") == "a=1; b=2";
    SplitJoin(["a=1", " b=2"], ';');
  }

  lemma StripLeadingBlank()
    ensures Strip(" b=2") == "b=2"
  {
    assert LeadingSpaces(" b=2"[1..]) == 0;
    assert LeadingSpaces(" b=2") == 1 && TrailingSpaces(" b=2") == 0;
    assert " b=2"[1..4] == "b=2";
  }

  lemma TwoCookieSegments()
    ensures '=' in "a=1" && Strip("a=1") == "a=1"
    ensures '=' in " b=2" && Strip(" b=2") == "b=2"
  {
    StripUnchanged("a=1");
    StripLeadingBlank();
    assert "a=1"[1] == '=';
    assert " b=2"[2] == '=';
  }

  /** `"a=1; b=2"` parses to `{a: 1, b: 2}`: the blank after `;` is stripped.
      Input pinned by the precondition. */
  lemma TwoCookies(text: string)
    requires text == "a=1; b=2"
    ensures ParseCookies(Raw(text)) == map["a" := "1", "b" := "2"]
  {
    SplitTwoCookies();
    TwoCookieSegments();
    ParseTwo(text, "a=1", " b=2", "a", "1", "b", "2");
  }

  /** Only the ends of a segment are stripped: in `"a = 1"` the key is `"a "`
      and the value `" 1"`. Input pinned by the precondition. */
  lemma BlanksAroundEqualsKept(text: string)
    requires text == "a = 1"
    ensures ParseCookies(Raw(text)) == map["a " := " 1"]
  {
    StripUnchanged(text);
    assert text[2] == '=';
    ParseOne(text, "a ", " 1");
  }

  lemma OverlayOverride(k: string, v0: string, v2: string)
    ensures Overlay([Some((k, v0)), None, Some((k, v2))]) == map[k := v2]
  {
    var entries := [Some((k, v0)), None, Some((k, v2))];
    assert entries[..2] == [Some((k, v0)), None];
    assert entries[..2][..1] == [Some((k, v0))];
    SingleEntry(k, v0);
  }

  /** Three segments, the middle one without `=`. */
  lemma ParseThree(text: string, s0: string, s1: string, s2: string, k: string, v0: string, v2: string)
    requires Split(text, ';') == [s0, s1, s2]
    requires '=' in s0 && Strip(s0) == k + "=" + v0 && '=' !in k
    requires '=' !in s1
    requires '=' in s2 && Strip(s2) == k + "=" + v2
    ensures ParseCookies(Raw(text)) == map[k := v2]
  {
    SegmentEntryOf(s0, k, v0);
    SegmentEntryOf(s2, k, v2);
    assert SegmentEntries(text) == [Some((k, v0)), None, Some((k, v2))];
    OverlayOverride(k, v0, v2);
  }

  lemma SplitThreeSegments()
    ensures Split("s=x=y;junk;s=z", ';') == ["s=x=y", "junk", "s=z"]
  {
    assert Join(["s=x=y", "junk", "s=z"], ";") == "s=x=y;junk;s=z";
    SplitJoin(["s=x=y", "junk", "s=z"], ';');
  }

  lemma ThreeSegments()
    ensures '=' in "s=x=y" && Strip("s=x=y") == "s=x=y"
    ensures '=' !in "junk"
    ensures '=' in "s=z" && Strip("s=z") == "s=z"
  {
    StripUnchanged("s=x=y");
    StripUnchanged("s=z");
    assert "s=x=y"[1] == '=' && "s=z"[1] == '=';
  }

  /** A value may contain `=`, a segment without `=` is dropped, and a later
      segment overrides an earlier one with the same key.
      Input pinned by the precondition. */
  lemma LaterSegmentWins(text: string)
    requires text == "s=x=y;junk;s=z"
    ensures ParseCookies(Raw(text)) == map["s" := "z"]
  {
    SplitThreeSegments();
    ThreeSegments();
    ParseThree(text, "s=x=y", "junk", "s=z", "s", "x=y", "z");
  }
}

=== FILE: fingerprint.dfy ===
/** The input of `generate_balance_hash`: the balances dict projected to its
    quotas and serialised by `json.dumps(..., sort_keys=True, separators=(',', ':'))`.
    The SHA-256 digest of that text is outside the model. */
module Fingerprint {
  import opened Base
  import opened Text
  import opened Money

  /** One account's balance, in hundredths. */
  datatype Balance = Balance(quota: int, used: int)

  /** A Python dict from account key to balance, in insertion order. */
  type Balances = seq<(string, Balance)>

  /** A projected dict entry: account key and quota. */
  type Entry = (string, int)

  predicate DistinctKeys<V>(xs: seq<(string, V)>) {
    forall i, j :: 0 <= i < j < |xs| ==> xs[i].0 != xs[j].0
  }

  // ---------------------------------------------------------------------------
  // Python's ordering of strings
  // ---------------------------------------------------------------------------

  /** `a < b` for Python strings: lexicographic by code point, a proper prefix first. */
  predicate Below(a: string, b: string) {
    if |a| == 0 then |b| > 0
    else if |b| == 0 then false
    else if a[0] != b[0] then a[0] < b[0]
    else Below(a[1..], b[1..])
  }

  lemma {:induction false} BelowIrreflexive(a: string)
    ensures !Below(a, a)
  {
    if |a| > 0 { BelowIrreflexive(a[1..]); }
  }

  lemma {:induction false} BelowTransitive(a: string, b: string, c: string)
    requires Below(a, b) && Below(b, c)
    ensures Below(a, c)
  {
    if |a| > 0 && |b| > 0 && |c| > 0 && a[0] == b[0] && b[0] == c[0] {
      BelowTransitive(a[1..], b[1..], c[1..]);
    }
  }

  lemma {:induction false} BelowAsymmetric(a: string, b: string)
    requires Below(a, b)
    ensures !Below(b, a)
  {
    if |a| > 0 && |b| > 0 && a[0] == b[0] {
      BelowAsymmetric(a[1..], b[1..]);
    }
  }

  lemma {:induction false} BelowTotal(a: string, b: string)
    requires a != b
    ensures Below(a, b) || Below(b, a)
  {
    if |a| > 0 && |b| > 0 && a[0] == b[0] {
      assert a == [a[0]] + a[1..] && b == [b[0]] + b[1..];
      BelowTotal(a[1..], b[1..]);
    }
  }

  // ---------------------------------------------------------------------------
  // sort_keys
  // ---------------------------------------------------------------------------

  predicate SortedByKey(xs: seq<Entry>) {
    forall i, j :: 0 <= i < j < |xs| ==> Below(xs[i].0, xs[j].0)
  }

  function Insert(e: Entry, xs: seq<Entry>): (r: seq<Entry>)
    requires SortedByKey(xs)
    requires forall i :: 0 <= i < |xs| ==> xs[i].0 != e.0
    ensures |r| == |xs| + 1
    ensures forall x :: x in r <==> x == e || x in xs
    ensures SortedByKey(r)
  {
    if |xs| == 0 then [e]
    else if Below(e.0, xs[0].0) then
      assert forall j :: 0 < j < |xs| ==> Below(e.0, xs[j].0) by {
        forall j | 0 < j < |xs| ensures Below(e.0, xs[j].0) {
          BelowTransitive(e.0, xs[0].0, xs[j].0);
        }
      }
      [e] + xs
    else
      BelowTotal(e.0, xs[0].0);
      var rest := Insert(e, xs[1..]);
      assert forall x :: x in xs <==> x == xs[0] || x in xs[1..] by {
        assert xs == [xs[0]] + xs[1..];
      }
      assert forall j :: 0 <= j < |rest| ==> Below(xs[0].0, rest[j].0) by {
        forall j | 0 <= j < |rest| ensures Below(xs[0].0, rest[j].0) {
          assert rest[j] == e || rest[j] in xs[1..];
        }
      }
      [xs[0]] + rest
  }

  /** The entries ordered by key, as `sort_keys=True` writes them. */
  function Sort(xs: seq<Entry>): (r: seq<Entry>)
    requires DistinctKeys(xs)
    ensures |r| == |xs|
    ensures forall x :: x in r <==> x in xs
    ensures SortedByKey(r)
  {
    if |xs| == 0 then []
    else
      var prefix := xs[..|xs| - 1];
      var last := xs[|xs| - 1];
      var sorted := Sort(prefix);
      assert forall i :: 0 <= i < |sorted| ==> sorted[i].0 != last.0 by {
        forall i | 0 <= i < |sorted| ensures sorted[i].0 != last.0 {
          assert sorted[i] in prefix;
        }
      }
      assert forall x :: x in xs <==> x == last || x in prefix by {
        assert xs == prefix + [last];
      }
      Insert(last, sorted)
  }

  /** A non-empty list has a member. Kept apart from `SortedUnique` so that its
      empty case, where a non-empty `b` contradicts the precondition, holds no
      index expression of its own. */
  lemma FirstIsMember(b: seq<Entry>)
    ensures |b| > 0 ==> b[0] in b
  {
  }

  /** Two key-sorted lists with the same entries are the same list: the order
      `sort_keys` produces does not depend on the insertion order. */
  lemma {:induction false} SortedUnique(a: seq<Entry>, b: seq<Entry>)
    requires SortedByKey(a) && SortedByKey(b)
    requires forall x :: x in a <==> x in b
    ensures a == b
  {
    if |a| == 0 {
      FirstIsMember(b);
    } else {
      assert a[0] in b;
      assert |b| > 0;
      assert b[0] in a;
      var i :| 0 <= i < |a| && a[i] == b[0];
      var j :| 0 <= j < |b| && b[j] == a[0];
      if j > 0 {
        if i > 0 {
          BelowAsymmetric(a[0].0, a[i].0);
        } else {
          BelowIrreflexive(b[0].0);
        }
      }
      assert a[0] == b[0];
      forall x ensures x in a[1..] <==> x in b[1..] {
        if x in a[1..] {
          var k :| 1 <= k < |a| && a[k] == x;
          BelowIrreflexive(a[0].0);
          assert x != b[0];
          assert x in b;
        }
        if x in b[1..] {
          var k :| 1 <= k < |b| && b[k] == x;
          BelowIrreflexive(b[0].0);
          assert x != a[0];
          assert x in a;
        }
      }
      SortedUnique(a[1..], b[1..]);
      assert a == [a[0]] + a[1..] && b == [b[0]] + b[1..];
    }
  }

  // ---------------------------------------------------------------------------
  // The projection {k: v['quota'] for k, v in balances.items()}
  // ---------------------------------------------------------------------------

  function Project(balances: Balances): (r: seq<Entry>)
    ensures |r| == |balances|
    ensures forall i :: 0 <= i < |r| ==> r[i] == (balances[i].0, balances[i].1.quota)
  {
    seq(|balances|, i requires 0 <= i < |balances| => (balances[i].0, balances[i].1.quota))
  }

  /** The projected dict as a map: each key to the quota last stored under it. */
  function QuotaMap(balances: Balances): map<string, int> {
    if |balances| == 0 then map[]
    else
      var last := balances[|balances| - 1];
      QuotaMap(balances[..|balances| - 1])[last.0 := last.1.quota]
  }

  /** With distinct keys, the projected entries are exactly the map's pairs. */
  lemma {:induction false} QuotaMapEntries(balances: Balances)
    requires DistinctKeys(balances)
    ensures forall x :: x in Project(balances) ==> x.0 in QuotaMap(balances) && QuotaMap(balances)[x.0] == x.1
    ensures forall k :: k in QuotaMap(balances) ==> (k, QuotaMap(balances)[k]) in Project(balances)
  {
    if |balances| > 0 {
      var prefix := balances[..|balances| - 1];
      var last := balances[|balances| - 1];
      QuotaMapEntries(prefix);
      forall x | x in Project(balances)
        ensures x.0 in QuotaMap(balances) && QuotaMap(balances)[x.0] == x.1
      {
        var i :| 0 <= i < |balances| && Project(balances)[i] == x;
        if i < |balances| - 1 {
          assert Project(prefix)[i] == x;
          assert x.0 != last.0;
        }
      }
      forall k | k in QuotaMap(balances)
        ensures (k, QuotaMap(balances)[k]) in Project(balances)
      {
        if k == last.0 {
          assert Project(balances)[|balances| - 1] == (k, QuotaMap(balances)[k]);
        } else {
          var x := (k, QuotaMap(balances)[k]);
          assert k in QuotaMap(prefix) && QuotaMap(prefix)[k] == x.1;
          assert x in Project(prefix);
          var i :| 0 <= i < |prefix| && Project(prefix)[i] == x;
          assert Project(balances)[i] == x;
        }
      }
    }
  }

  // ---------------------------------------------------------------------------
  // json.dumps with separators=(',', ':')
  // ---------------------------------------------------------------------------

  /** Keys written as-is by `json.dumps`: ASCII letters, digits and `_`. */
  predicate SimpleKey(k: string) {
    forall i :: 0 <= i < |k| ==> ('a' <= k[i] <= 'z') || ('A' <= k[i] <= 'Z') || IsDigit(k[i]) || k[i] == '_'
  }

  function Member(e: Entry): string {
    "\"" + e.0 + "\":" + Format(e.1)
  }

  function Members(xs: seq<Entry>): (r: seq<string>)
    ensures |r| == |xs|
    ensures forall i :: 0 <= i < |xs| ==> r[i] == Member(xs[i])
  {
    seq(|xs|, i requires 0 <= i < |xs| => Member(xs[i]))
  }

  function Serialize(xs: seq<Entry>): string {
    "{" + Join(Members(xs), ",") + "}"
  }

  /** The text that is hashed for a balances dict. */
  function HashInput(balances: Balances): string
    requires DistinctKeys(balances)
  {
    Serialize(Sort(Project(balances)))
  }

  // ---------------------------------------------------------------------------
  // Reading the serialised text back
  // ---------------------------------------------------------------------------

  function ParseMember(s: string): Option<Entry> {
    if ':' !in s then None
    else
      var (quoted, amount) := SplitAtFirst(s, ':');
      if |quoted| < 2 || quoted[0] != '"' || quoted[|quoted| - 1] != '"' then None
      else
        match Parse(amount)
        case None => None
        case Some(h) => Some((quoted[1..|quoted| - 1], h))
  }

  function ParseMembers(parts: seq<string>): Option<seq<Entry>> {
    if |parts| == 0 then Some([])
    else
      match ParseMember(parts[0])
      case None => None
      case Some(e) =>
        match ParseMembers(parts[1..])
        case None => None
        case Some(rest) => Some([e] + rest)
  }

  function ParseObject(s: string): Option<seq<Entry>> {
    if |s| < 2 || s[0] != '{' || s[|s| - 1] != '}' then None
    else
      var inner := s[1..|s| - 1];
      if inner == "" then Some([]) else ParseMembers(Split(inner, ','))
  }

  lemma ParseMemberOf(e: Entry)
    requires SimpleKey(e.0)
    ensures ParseMember(Member(e)) == Some(e)
  {
    var quoted := "\"" + e.0 + "\"";
    assert Member(e) == quoted + [':'] + Format(e.1);
    assert ':' !in quoted by {
      forall i | 0 <= i < |quoted| ensures quoted[i] != ':' {
        if 0 < i < |quoted| - 1 { assert quoted[i] == e.0[i - 1]; }
      }
    }
    SplitAtFirstUnique(Member(e), ':', quoted, Format(e.1));
    assert quoted[1..|quoted| - 1] == e.0;
    ParseFormat(e.1);
  }

  lemma {:induction false} ParseMembersOf(xs: seq<Entry>)
    requires forall i :: 0 <= i < |xs| ==> SimpleKey(xs[i].0)
    ensures ParseMembers(Members(xs)) == Some(xs)
  {
    if |xs| > 0 {
      var parts := Members(xs);
      ParseMemberOf(xs[0]);
      assert parts[1..] == Members(xs[1..]);
      ParseMembersOf(xs[1..]);
      ParseMembersCons(parts, xs[0], xs[1..]);
      assert xs == [xs[0]] + xs[1..];
    }
  }

  lemma ParseMembersCons(parts: seq<string>, e: Entry, rest: seq<Entry>)
    requires |parts| > 0 && ParseMember(parts[0]) == Some(e) && ParseMembers(parts[1..]) == Some(rest)
    ensures ParseMembers(parts) == Some([e] + rest)
  {
  }

  lemma MemberHasNoComma(e: Entry)
    requires SimpleKey(e.0)
    ensures ',' !in Member(e)
  {
    var m := Member(e);
    forall i | 0 <= i < |m| ensures m[i] != ',' {
      if 0 < i <= |e.0| {
        assert m[i] == e.0[i - 1];
      } else if i > |e.0| + 2 {
        assert m[i] == Format(e.1)[i - |e.0| - 3];
      }
    }
  }

  /** Reading the serialised text gives back the entries. */
  lemma ParseSerialize(xs: seq<Entry>)
    requires forall i :: 0 <= i < |xs| ==> SimpleKey(xs[i].0)
    ensures ParseObject(Serialize(xs)) == Some(xs)
  {
    var s := Serialize(xs);
    var parts := Members(xs);
    assert s[1..|s| - 1] == Join(parts, ",");
    if |xs| > 0 {
      MembersSplit(xs);
      ParseMembersOf(xs);
    }
  }

  /** The members of a non-empty list, joined by `,`, form non-empty text
      that splits at `,` back into those members. */
  lemma MembersSplit(xs: seq<Entry>)
    requires |xs| > 0
    requires forall i :: 0 <= i < |xs| ==> SimpleKey(xs[i].0)
    ensures Join(Members(xs), ",") != ""
    ensures Split(Join(Members(xs), ","), ',') == Members(xs)
  {
    var parts := Members(xs);
    forall i | 0 <= i < |parts| ensures ',' !in parts[i] {
      MemberHasNoComma(xs[i]);
    }
    SplitJoin(parts, ',');
    JoinNonEmpty(parts, ",");
  }

  lemma JoinNonEmpty(parts: seq<string>, sep: string)
    requires |parts| > 0 && |parts[0]| > 0
    ensures Join(parts, sep) != ""
  {
    if |parts| > 1 {
      assert Join(parts, sep) == parts[0] + sep + Join(parts[1..], sep);
    }
  }

  // ---------------------------------------------------------------------------
  // What the hashed text depends on
  // ---------------------------------------------------------------------------

  /** The hashed text depends only on which quota each key has: not on the
      insertion order of the dict, and not on the used amounts. */
  lemma HashInputDependsOnlyOnQuotas(a: Balances, b: Balances)
    requires DistinctKeys(a) && DistinctKeys(b)
    requires QuotaMap(a) == QuotaMap(b)
    ensures HashInput(a) == HashInput(b)
  {
    QuotaMapEntries(a);
    QuotaMapEntries(b);
    var sa := Sort(Project(a));
    var sb := Sort(Project(b));
    forall x ensures x in sa <==> x in sb {
      assert x in sa <==> x in Project(a);
      assert x in sb <==> x in Project(b);
      if x in Project(a) { assert (x.0, QuotaMap(b)[x.0]) in Project(b); }
      if x in Project(b) { assert (x.0, QuotaMap(a)[x.0]) in Project(a); }
    }
    SortedUnique(sa, sb);
  }

  /** Conversely, different quotas give different hashed texts. */
  lemma HashInputDeterminesQuotas(a: Balances, b: Balances)
    requires DistinctKeys(a) && DistinctKeys(b)
    requires forall i :: 0 <= i < |a| ==> SimpleKey(a[i].0)
    requires forall i :: 0 <= i < |b| ==> SimpleKey(b[i].0)
    requires HashInput(a) == HashInput(b)
    ensures QuotaMap(a) == QuotaMap(b)
  {
    var sa := Sort(Project(a));
    var sb := Sort(Project(b));
    assert forall i :: 0 <= i < |sa| ==> SimpleKey(sa[i].0) by {
      forall i | 0 <= i < |sa| ensures SimpleKey(sa[i].0) {
        assert sa[i] in Project(a);
      }
    }
    assert forall i :: 0 <= i < |sb| ==> SimpleKey(sb[i].0) by {
      forall i | 0 <= i < |sb| ensures SimpleKey(sb[i].0) {
        assert sb[i] in Project(b);
      }
    }
    ParseSerialize(sa);
    ParseSerialize(sb);
    SameSortedSameQuotas(a, b);
  }

  lemma SameSortedSameQuotas(a: Balances, b: Balances)
    requires DistinctKeys(a) && DistinctKeys(b)
    requires Sort(Project(a)) == Sort(Project(b))
    ensures QuotaMap(a) == QuotaMap(b)
  {
    var s := Sort(Project(a));
    assert forall x :: x in Project(a) <==> x in s;
    SameEntriesSameQuotas(a, b);
  }

  lemma SameEntriesSameQuotas(a: Balances, b: Balances)
    requires DistinctKeys(a) && DistinctKeys(b)
    requires forall x :: x in Project(a) <==> x in Project(b)
    ensures QuotaMap(a) == QuotaMap(b)
  {
    QuotaMapEntries(a);
    QuotaMapEntries(b);
    var ma, mb := QuotaMap(a), QuotaMap(b);
    forall k | k in ma ensures k in mb && mb[k] == ma[k] {
      assert (k, ma[k]) in Project(a);
    }
    forall k | k in mb ensures k in ma {
      assert (k, mb[k]) in Project(b);
    }
  }

}

=== FILE: http.dfy ===
/** What the script sends and receives over HTTP, with the network itself
    left outside the model: replies are inputs, requests are recorded. */
module Http {
  import opened Json
  import opened Cookies

  type Headers = map<string, string>

  /** A response body: either `response.json()` decodes it, or decoding fails
      with the given message and only the raw `text` is usable. */
  datatype Body = Parsed(json: Json) | NotJson(text: string, decodeError: string)

  datatype Response = Response(status: nat, body: Body)

  /** One outward action of the script, in the order it happens. */
  datatype Event =
    | OpenBrowser(url: string)
    | Post(url: string, headers: Headers, cookies: Jar)
    | Get(url: string, headers: Headers, cookies: Jar)
}

=== FILE: json.dfy ===
/** Decoded JSON values as the script sees them after `response.json()`,
    with the Python operations it applies to them. */
module Json {

  /** A decoded JSON document. Numbers are integers; a JSON object with a
      repeated key keeps its last value, as Python's decoder does. */
  datatype Json =
    | Null
    | Bool(b: bool)
    | Int(i: int)
    | Str(s: string)
    | Arr(items: seq<Json>)
    | Obj(fields: map<string, Json>)

  /** `d.get(key)`: a missing key reads as `None`. */
  function Lookup(fields: map<string, Json>, key: string): Json {
    if key in fields then fields[key] else Null
  }

  /** `d.get(key, default)` */
  function LookupOr(fields: map<string, Json>, key: string, default: Json): Json {
    if key in fields then fields[key] else default
  }

  /** Python truthiness, `bool(x)`. */
  predicate Truthy(j: Json) {
    match j
    case Null => false
    case Bool(b) => b
    case Int(i) => i != 0
    case Str(s) => s != ""
    case Arr(items) => items != []
    case Obj(fields) => fields != map[]
  }

  /** Python `x == n` for an int literal `n`. `bool` is a subclass of `int`,
      so `True == 1` and `False == 0`; values of other types are never equal to an int. */
  predicate EqualsInt(j: Json, n: int) {
    match j
    case Int(i) => i == n
    case Bool(b) => (if b then 1 else 0) == n
    case _ => false
  }

  /** `type(x).__name__` */
  function TypeName(j: Json): string {
    match j
    case Null => "NoneType"
    case Bool(_) => "bool"
    case Int(_) => "int"
    case Str(_) => "str"
    case Arr(_) => "list"
    case Obj(_) => "dict"
  }

  /** The message of the `AttributeError` raised by `x.get(...)` when `x` is not a dict. */
  function NoGetMessage(j: Json): string {
    "'" + TypeName(j) + "' object has no attribute 'get'"
  }

  lemma NoGetMessageOfList(items: seq<Json>)
    ensures NoGetMessage(Arr(items)) == "'list' object has no attribute 'get'"
  {
    assert "'" + "list" == "'list";
    assert "'list" + "' object has no attribute 'get'" == "'list' object has no attribute 'get'";
  }

  /** Values that `x / 500000` accepts: ints, and bools as 0 and 1. */
  predicate IsNumber(j: Json) {
    j.Int? || j.Bool?
  }

  function NumberValue(j: Json): int
    requires IsNumber(j)
  {
    if j.Int? then j.i else if j.b then 1 else 0
  }

  /** The message of the `TypeError` raised by `x / 500000` when `x` is not a number. */
  function DivisionTypeMessage(j: Json): string {
    "unsupported operand type(s) for /: '" + TypeName(j) + "' and 'int'"
  }
}

=== FILE: money.dfy ===
/** Quota amounts: the provider reports raw integers, the script shows
    `round(raw / 500000, 2)`. Amounts are kept here as whole hundredths. */
module Money {
  import opened Base
  import opened Text

  /** Raw quota units per displayed currency unit. */
  const RawPerUnit: int := 500000

  /** Raw quota units per hundredth of a currency unit. */
  const RawPerHundredth: int := RawPerUnit / 100

  /** `round(raw / 500000, 2)` counted in hundredths: the nearest hundredth,
      and exact when the raw amount is a whole number of hundredths. */
  function ToHundredths(raw: int): (h: int)
    ensures RawPerHundredth * h - RawPerHundredth / 2 <= raw <= RawPerHundredth * h + RawPerHundredth / 2
    ensures raw % RawPerHundredth == 0 ==> RawPerHundredth * h == raw
  {
    var q := raw / RawPerHundredth;
    var rem := raw % RawPerHundredth;
    assert raw == RawPerHundredth * q + rem && 0 <= rem < RawPerHundredth;
    if rem < RawPerHundredth / 2 then q
    else if rem > RawPerHundredth / 2 then q + 1
    else if q % 2 == 0 then q
    else q + 1
  }

  /** The digits after the point in `repr` of a float with at most two decimals. */
  function FractionDigits(f: nat): (s: string)
    requires f < 100
    ensures 1 <= |s| <= 2 && AllDigits(s)
  {
    if f == 0 then "0"
    else if f % 10 == 0 then [DigitChar(f / 10)]
    else [DigitChar(f / 10), DigitChar(f % 10)]
  }

  function FractionValue(s: string): (f: nat)
    requires 1 <= |s| <= 2 && AllDigits(s)
    ensures f < 100
  {
    if |s| == 1 then 10 * DigitValue(s[0]) else 10 * DigitValue(s[0]) + DigitValue(s[1])
  }

  function Abs(h: int): nat {
    if h < 0 then -h else h
  }

  /** Characters that can appear in a formatted amount. */
  predicate IsAmountChar(c: char) {
    IsDigit(c) || c == '.' || c == '-'
  }

  /** `repr(h / 100)` of the rounded float, as printed by f-strings and
      `json.dumps`: `2.0`, `1.5`, `0.01`, `-3.25`. */
  function Format(h: int): (s: string)
    ensures forall i :: 0 <= i < |s| ==> IsAmountChar(s[i])
  {
    var units := NatToString(Abs(h) / 100) + "." + FractionDigits(Abs(h) % 100);
    if h < 0 then "-" + units else units
  }

  function ParseUnsigned(s: string): Option<nat> {
    if '.' !in s then None
    else
      var (whole, frac) := SplitAtFirst(s, '.');
      if |whole| == 0 || !AllDigits(whole) || !(1 <= |frac| <= 2) || !AllDigits(frac) then None
      else Some(100 * DigitsToNat(whole) + FractionValue(frac))
  }

  /** Reads a formatted amount back into hundredths. */
  function Parse(s: string): Option<int> {
    if |s| > 0 && s[0] == '-' then
      match ParseUnsigned(s[1..])
      case Some(n) => Some(-(n as int))
      case None => None
    else ParseUnsigned(s)
  }

  lemma FractionRoundTrip(f: nat)
    requires f < 100
    ensures FractionValue(FractionDigits(f)) == f
  {
  }

  /** Parsing undoes formatting. */
  lemma ParseFormat(h: int)
    ensures Parse(Format(h)) == Some(h)
  {
    var n := Abs(h);
    var whole := NatToString(n / 100);
    var units := whole + "." + FractionDigits(n % 100);
    ParseUnsignedFormat(n);
    assert units[0] == whole[0];
    if h < 0 {
      ParseNegative(units, n);
    } else {
      ParseNonNegative(units, n);
    }
  }

  lemma ParseNegative(units: string, n: nat)
    requires ParseUnsigned(units) == Some(n)
    ensures Parse("-" + units) == Some(-(n as int))
  {
    assert ("-" + units)[1..] == units;
  }

  lemma ParseNonNegative(units: string, n: nat)
    requires |units| > 0 && IsDigit(units[0])
    requires ParseUnsigned(units) == Some(n)
    ensures Parse(units) == Some(n)
  {
  }

  lemma ParseUnsignedFormat(n: nat)
    ensures ParseUnsigned(NatToString(n / 100) + "." + FractionDigits(n % 100)) == Some(n)
  {
    var whole := NatToString(n / 100);
    var frac := FractionDigits(n % 100);
    var units := whole + "." + frac;
    assert '.' !in whole;
    SplitAtFirstUnique(units, '.', whole, frac);
    DigitsToNatToString(n / 100);
    FractionRoundTrip(n % 100);
  }

  /** Different amounts are displayed differently. */
  lemma FormatInjective(a: int, b: int)
    requires Format(a) == Format(b)
    ensures a == b
  {
    ParseFormat(a);
    ParseFormat(b);
  }

  /** The amounts the script's users see: 1000000 raw is `2.0`, 750000 raw is `1.5`.
      Input pinned by the precondition, as in `CookieExamples`. */
  lemma ScaleExamples(two: int, oneHalf: int, one: int)
    requires two == 1000000 && oneHalf == 750000 && one == 500000
    ensures ToHundredths(two) == 200 && Format(ToHundredths(two)) == "2.0"
    ensures ToHundredths(oneHalf) == 150 && Format(ToHundredths(oneHalf)) == "1.5"
    ensures ToHundredths(one) == 100 && Format(ToHundredths(one)) == "1.0"
  {
    ScaleExample(two, 200);
    ScaleExample(oneHalf, 150);
    ScaleExample(one, 100);
    FormatTwo(ToHundredths(two));
    FormatOneHalf(ToHundredths(oneHalf));
    FormatOne(ToHundredths(one));
  }

  lemma ScaleExample(raw: int, h: int)
    requires raw == RawPerHundredth * h
    ensures ToHundredths(raw) == h
  {
    assert RawPerHundredth == 5000;
    assert raw % RawPerHundredth == 0;
    ExactHundredths(raw);
  }

  /** A whole number of hundredths is scaled without rounding. */
  lemma ExactHundredths(raw: int)
    requires raw % RawPerHundredth == 0
    ensures ToHundredths(raw) == raw / RawPerHundredth
  {
  }

  /** Two units print as `2.0`. */
  lemma FormatTwo(h: int)
    requires h == 200
    ensures Format(h) == "2.0"
  {
    assert NatToString(Abs(h) / 100) == "2";
    assert FractionDigits(Abs(h) % 100) == "0";
  }

  /** One and a half units print as `1.5`. */
  lemma FormatOneHalf(h: int)
    requires h == 150
    ensures Format(h) == "1.5"
  {
    assert NatToString(Abs(h) / 100) == "1";
    assert FractionDigits(Abs(h) % 100) == "5";
  }

  /** One unit prints as `1.0`. */
  lemma FormatOne(h: int)
    requires h == 100
    ensures Format(h) == "1.0"
  {
    assert NatToString(Abs(h) / 100) == "1";
    assert FractionDigits(Abs(h) % 100) == "0";
  }
}

=== FILE: text.dfy ===
/** The Python string operations the check-in script relies on, over `seq<char>`. */
module Text {

  /** Python's `str.isspace()` for one character: the characters that
      `str.strip()` with no argument removes. */
  predicate IsSpace(c: char) {
    || c == ' '
    || ('\t' <= c <= '\r')
    || ('\U{1C}' <= c <= '\U{1F}')
    || c == '\U{85}' || c == '\U{A0}' || c == '\U{1680}'
    || ('\U{2000}' <= c <= '\U{200A}')
    || c == '\U{2028}' || c == '\U{2029}' || c == '\U{202F}' || c == '\U{205F}' || c == '\U{3000}'
  }

  // ---------------------------------------------------------------------------
  // str.join and str.split(sep)
  // ---------------------------------------------------------------------------

  /** `sep.join(parts)` */
  function Join(parts: seq<string>, sep: string): string {
    if |parts| == 0 then ""
    else if |parts| == 1 then parts[0]
    else parts[0] + sep + Join(parts[1..], sep)
  }

  /** `s.split(sep)` for a one-character separator: always at least one piece,
      no piece contains the separator, and joining the pieces gives back `s`. */
  function Split(s: string, sep: char): (pieces: seq<string>)
    ensures |pieces| >= 1
    ensures forall i :: 0 <= i < |pieces| ==> sep !in pieces[i]
    ensures Join(pieces, [sep]) == s
  {
    SplitFrom(s, sep, "")
  }

  /** Splitting `s` when the characters of `current` already started the first piece. */
  function SplitFrom(s: string, sep: char, current: string): (pieces: seq<string>)
    requires sep !in current
    ensures |pieces| >= 1
    ensures forall i :: 0 <= i < |pieces| ==> sep !in pieces[i]
    ensures Join(pieces, [sep]) == current + s
    decreases |s|
  {
    if |s| == 0 then [current]
    else if s[0] == sep then
      var rest := SplitFrom(s[1..], sep, "");
      assert ([current] + rest)[1..] == rest;
      assert current + s == current + [sep] + s[1..];
      [current] + rest
    else
      assert current + s == (current + [s[0]]) + s[1..];
      SplitFrom(s[1..], sep, current + [s[0]])
  }

  lemma {:induction false} SplitFromNoSeparator(s: string, sep: char, current: string)
    requires sep !in s && sep !in current
    ensures SplitFrom(s, sep, current) == [current + s]
    decreases |s|
  {
    if |s| > 0 {
      SplitFromNoSeparator(s[1..], sep, current + [s[0]]);
      assert current + [s[0]] + s[1..] == current + s;
    }
  }

  lemma SplitNoSeparator(s: string, sep: char)
    requires sep !in s
    ensures Split(s, sep) == [s]
  {
    SplitFromNoSeparator(s, sep, "");
  }

  lemma {:induction false} SplitFromAfterPiece(a: string, sep: char, b: string, current: string)
    requires sep !in a && sep !in current
    ensures SplitFrom(a + [sep] + b, sep, current) == [current + a] + Split(b, sep)
    decreases |a|
  {
    if |a| == 0 {
      assert a + [sep] + b == [sep] + b;
      assert ([sep] + b)[1..] == b;
      assert current + a == current;
    } else {
      assert (a + [sep] + b)[1..] == a[1..] + [sep] + b;
      SplitFromAfterPiece(a[1..], sep, b, current + [a[0]]);
      assert current + [a[0]] + a[1..] == current + a;
    }
  }

  lemma SplitAfterFirstPiece(a: string, sep: char, b: string)
    requires sep !in a
    ensures Split(a + [sep] + b, sep) == [a] + Split(b, sep)
  {
    SplitFromAfterPiece(a, sep, b, "");
    assert "" + a == a;
  }

  /** Splitting undoes joining when no piece holds the separator. */
  lemma {:induction false} SplitJoin(parts: seq<string>, sep: char)
    requires |parts| >= 1
    requires forall i :: 0 <= i < |parts| ==> sep !in parts[i]
    ensures Split(Join(parts, [sep]), sep) == parts
  {
    if |parts| == 1 {
      SplitNoSeparator(parts[0], sep);
    } else {
      SplitJoin(parts[1..], sep);
      SplitAfterFirstPiece(parts[0], sep, Join(parts[1..], [sep]));
      assert [parts[0]] + parts[1..] == parts;
    }
  }

  // ---------------------------------------------------------------------------
  // str.split(sep, 1) when sep occurs
  // ---------------------------------------------------------------------------

  /** The position of the first `c` in `s`. */
  function IndexOf(s: string, c: char): (i: nat)
    requires c in s
    ensures i < |s| && s[i] == c && c !in s[..i]
  {
    if s[0] == c then 0 else 1 + IndexOf(s[1..], c)
  }

  /** `s.split(sep, 1)` unpacked into two names, as in `key, value = s.split('=', 1)`;
      the unpacking only succeeds when `sep` occurs in `s`. */
  function SplitAtFirst(s: string, sep: char): (kv: (string, string))
    requires sep in s
    ensures kv.0 + [sep] + kv.1 == s
    ensures sep !in kv.0
  {
    var i := IndexOf(s, sep);
    assert s[..i] + [sep] + s[i + 1..] == s;
    (s[..i], s[i + 1..])
  }

  /** There is only one way to cut `s` at a first separator. */
  lemma SplitAtFirstUnique(s: string, sep: char, key: string, value: string)
    requires key + [sep] + value == s
    requires sep !in key
    ensures sep in s
    ensures SplitAtFirst(s, sep) == (key, value)
  {
    assert s[|key|] == sep;
    var i := IndexOf(s, sep);
    assert i == |key|;
    assert s[..i] == key;
    assert s[i + 1..] == value;
  }

  // ---------------------------------------------------------------------------
  // str.strip()
  // ---------------------------------------------------------------------------

  /** The number of whitespace characters `s` starts with. */
  function LeadingSpaces(s: string): (n: nat)
    ensures n <= |s|
    ensures forall i :: 0 <= i < n ==> IsSpace(s[i])
    ensures n < |s| ==> !IsSpace(s[n])
  {
    if |s| > 0 && IsSpace(s[0]) then 1 + LeadingSpaces(s[1..]) else 0
  }

  /** The number of whitespace characters `s` ends with. */
  function TrailingSpaces(s: string): (n: nat)
    ensures n <= |s|
    ensures forall i :: |s| - n <= i < |s| ==> IsSpace(s[i])
    ensures n < |s| ==> !IsSpace(s[|s| - 1 - n])
  {
    if |s| > 0 && IsSpace(s[|s| - 1]) then 1 + TrailingSpaces(s[..|s| - 1]) else 0
  }

  /** `s.strip()`: the result is the piece of `s` starting at `LeadingSpaces(s)`;
      everything cut off on either side is whitespace, and the result neither
      starts nor ends with whitespace. */
  function Strip(s: string): (r: string)
    ensures LeadingSpaces(s) + |r| <= |s|
    ensures s[LeadingSpaces(s)..LeadingSpaces(s) + |r|] == r
    ensures forall i :: 0 <= i < LeadingSpaces(s) ==> IsSpace(s[i])
    ensures forall i :: LeadingSpaces(s) + |r| <= i < |s| ==> IsSpace(s[i])
    ensures r == [] || (!IsSpace(r[0]) && !IsSpace(r[|r| - 1]))
  {
    var lead := LeadingSpaces(s);
    if lead == |s| then []
    else
      var trail := TrailingSpaces(s);
      assert lead < |s| - trail;
      s[lead..|s| - trail]
  }

  /** Stripping never removes a non-whitespace character (such as `=`). */
  lemma StripKeepsNonSpace(s: string, c: char)
    requires c in s && !IsSpace(c)
    ensures c in Strip(s)
  {
    var i :| 0 <= i < |s| && s[i] == c;
    var r := Strip(s);
    var lead := LeadingSpaces(s);
    assert lead <= i < lead + |r|;
    assert r[i - lead] == s[i];
  }

  /** Whatever survives `strip()` was in the input. */
  lemma InStripInSource(s: string, c: char)
    requires c in Strip(s)
    ensures c in s
  {
    var r := Strip(s);
    var i :| 0 <= i < |r| && r[i] == c;
    assert s[LeadingSpaces(s) + i] == c;
  }

  /** Stripping twice is stripping once. */
  lemma StripIdempotent(s: string)
    ensures Strip(Strip(s)) == Strip(s)
  {
    StripUnchanged(Strip(s));
  }

  /** A string with no whitespace at either end is its own strip. */
  lemma StripUnchanged(s: string)
    requires s == [] || (!IsSpace(s[0]) && !IsSpace(s[|s| - 1]))
    ensures Strip(s) == s
  {
    if s != [] {
      assert LeadingSpaces(s) == 0 && TrailingSpaces(s) == 0;
      assert s[0..|s|] == s;
    }
  }

  // ---------------------------------------------------------------------------
  // str.lower(), substring test, slicing
  // ---------------------------------------------------------------------------

  /** Lower-casing of one character, for the ASCII letters. */
  function LowerChar(c: char): char {
    if 'A' <= c <= 'Z' then (c as int + 32) as char else c
  }

  function Lower(s: string): (r: string)
    ensures |r| == |s|
  {
    seq(|s|, i requires 0 <= i < |s| => LowerChar(s[i]))
  }

  /** `pat in text` for strings. */
  predicate Contains(text: string, pat: string) {
    pat <= text || (|text| > 0 && Contains(text[1..], pat))
  }

  /** `pat in text` holds as soon as `pat` occurs at some position. */
  lemma {:induction false} ContainsAt(text: string, pat: string, i: nat)
    requires i + |pat| <= |text| && text[i..i + |pat|] == pat
    ensures Contains(text, pat)
  {
    if i > 0 {
      assert text[1..][i - 1..i - 1 + |pat|] == pat;
      ContainsAt(text[1..], pat, i - 1);
    } else {
      assert pat <= text;
    }
  }

  lemma {:induction false} ContainsInPrefix(t: string, y: string, pat: string)
    requires Contains(t, pat)
    ensures Contains(t + y, pat)
  {
    if !(pat <= t) {
      assert (t + y)[1..] == t[1..] + y;
      ContainsInPrefix(t[1..], y, pat);
    }
  }

  lemma {:induction false} ContainsInSuffix(x: string, t: string, pat: string)
    requires Contains(t, pat)
    ensures Contains(x + t, pat)
  {
    if |x| > 0 {
      assert (x + t)[1..] == x[1..] + t;
      ContainsInSuffix(x[1..], t, pat);
    } else {
      assert x + t == t;
    }
  }

  /** Every part occurs in the joined text. */
  lemma {:induction false} JoinHasPart(parts: seq<string>, sep: string, i: nat)
    requires i < |parts|
    ensures Contains(Join(parts, sep), parts[i])
  {
    if i == 0 {
      if |parts| > 1 {
        ContainsAt(parts[0], parts[0], 0);
        ContainsInPrefix(parts[0], sep + Join(parts[1..], sep), parts[0]);
        assert parts[0] + (sep + Join(parts[1..], sep)) == Join(parts, sep);
      } else {
        ContainsAt(parts[0], parts[0], 0);
      }
    } else {
      JoinHasPart(parts[1..], sep, i - 1);
      ContainsInSuffix(parts[0] + sep, Join(parts[1..], sep), parts[i]);
    }
  }

  /** `s[:n]` */
  function Prefix(s: string, n: nat): (r: string)
    ensures r <= s
    ensures |r| == if |s| <= n then |s| else n
  {
    if |s| <= n then s else s[..n]
  }

  // ---------------------------------------------------------------------------
  // str(n) for a non-negative int, and its inverse
  // ---------------------------------------------------------------------------

  predicate IsDigit(c: char) {
    '0' <= c <= '9'
  }

  function DigitChar(d: nat): (c: char)
    requires d < 10
    ensures IsDigit(c)
  {
    ('0' as int + d) as char
  }

  function DigitValue(c: char): (d: nat)
    requires IsDigit(c)
    ensures d < 10 && DigitChar(d) == c
  {
    c as int - '0' as int
  }

  predicate AllDigits(s: string) {
    forall i :: 0 <= i < |s| ==> IsDigit(s[i])
  }

  /** Python's `str(n)`: decimal digits with no leading zero. */
  function NatToString(n: nat): (r: string)
    ensures |r| >= 1 && AllDigits(r)
    ensures |r| > 1 ==> r[0] != '0'
    ensures n < 10 <==> |r| == 1
  {
    if n < 10 then [DigitChar(n)] else NatToString(n / 10) + [DigitChar(n % 10)]
  }

  /** Python's `int(s)` for a string of decimal digits. */
  function DigitsToNat(s: string): nat
    requires AllDigits(s)
  {
    if |s| == 0 then 0 else 10 * DigitsToNat(s[..|s| - 1]) + DigitValue(s[|s| - 1])
  }

  /** Reading back the decimal string gives the number. */
  lemma {:induction false} DigitsToNatToString(n: nat)
    ensures DigitsToNat(NatToString(n)) == n
  {
    if n >= 10 {
      DigitsToNatToString(n / 10);
      var s := NatToString(n);
      assert s[..|s| - 1] == NatToString(n / 10);
    }
  }

  /** Distinct numbers print differently. */
  lemma NatToStringInjective(a: nat, b: nat)
    requires NatToString(a) == NatToString(b)
    ensures a == b
  {
    DigitsToNatToString(a);
    DigitsToNatToString(b);
  }
}

=== FILE: userinfo.dfy ===
/** `get_user_info`: the balance GET and the outcome record built from it. */
module UserInfo {
  import opened Base
  import opened Text
  import opened Json
  import opened Money
  import opened Http

  /** The dict `get_user_info` returns: on success the scaled quota and used
      quota (in hundredths) and the display line, otherwise an error string. */
  datatype UserInfo = InfoOk(quota: int, used: int, display: string) | InfoErr(error: string)

  const ErrorPrefix: string := "Failed to get user info: "

  /** Longest exception text kept in an error string. */
  const MaxExceptionText: nat := 50

  function HttpError(status: nat): (e: string)
    ensures ErrorPrefix <= e
  {
    ErrorPrefix + "HTTP " + NatToString(status)
  }

  /** The error string for an exception: its message cut to 50 characters, then `...`. */
  function ExceptionError(message: string): (e: string)
    ensures e == ErrorPrefix + Prefix(message, MaxExceptionText) + "..."
    ensures ErrorPrefix <= e
    ensures |e| <= |ErrorPrefix| + MaxExceptionText + 3
  {
    ErrorPrefix + Prefix(message, MaxExceptionText) + "..."
  }

  function Display(quota: int, used: int): string {
    ":money: Current balance: $" + Format(quota) + ", Used: $" + Format(used)
  }

  /** `round(user_data.get(key, 0) / 500000, 2)` in hundredths: a missing key
      reads as 0, and a value that is not a number makes `/` raise. */
  function ReadAmount(data: map<string, Json>, key: string): (r: Call<int>)
    ensures key !in data ==> r == Returned(0)
    ensures r.Raised? <==> key in data && !IsNumber(data[key])
    ensures key in data && IsNumber(data[key]) ==> r == Returned(ToHundredths(NumberValue(data[key])))
    ensures r.Raised? ==> r.message == DivisionTypeMessage(data[key])
  {
    var v := LookupOr(data, key, Int(0));
    if IsNumber(v) then Returned(ToHundredths(NumberValue(v))) else Raised(DivisionTypeMessage(v))
  }

  /** How the two amount reads decide the outcome: the first exception raised
      is reported, and with both amounts read the balance is displayed. */
  predicate AmountsInfo(quota: Call<int>, used: Call<int>, info: UserInfo) {
    if quota.Raised? then info == InfoErr(ExceptionError(quota.message))
    else if used.Raised? then info == InfoErr(ExceptionError(used.message))
    else info == InfoOk(quota.value, used.value, Display(quota.value, used.value))
  }

  /** The part of `get_user_info` that reads a 200 response's decoded body. */
  function InfoFromJson(json: Json): (info: UserInfo)
    ensures info.InfoOk? ==> json.Obj? && Truthy(Lookup(json.fields, "success"))
    ensures info.InfoOk? ==> info.display == Display(info.quota, info.used)
    ensures info.InfoErr? ==> ErrorPrefix <= info.error
    ensures !json.Obj? ==> info == InfoErr(ExceptionError(NoGetMessage(json)))
    ensures json.Obj? && !Truthy(Lookup(json.fields, "success")) ==> info == InfoErr(HttpError(200))
    ensures json.Obj? && Truthy(Lookup(json.fields, "success")) ==>
              var data := LookupOr(json.fields, "data", Obj(map[]));
              && (!data.Obj? ==> info == InfoErr(ExceptionError(NoGetMessage(data))))
              && (data.Obj? ==> AmountsInfo(ReadAmount(data.fields, "quota"), ReadAmount(data.fields, "used_quota"), info))
  {
    if !json.Obj? then InfoErr(ExceptionError(NoGetMessage(json)))
    else if !Truthy(Lookup(json.fields, "success")) then InfoErr(HttpError(200))
    else
      var data := LookupOr(json.fields, "data", Obj(map[]));
      if !data.Obj? then InfoErr(ExceptionError(NoGetMessage(data)))
      else
        match ReadAmount(data.fields, "quota")
        case Raised(m) => InfoErr(ExceptionError(m))
        case Returned(quota) =>
          match ReadAmount(data.fields, "used_quota")
          case Raised(m) => InfoErr(ExceptionError(m))
          case Returned(used) => InfoOk(quota, used, Display(quota, used))
  }

  /** A 200 response whose body decodes to an object with a truthy `success`. */
  predicate Accepted(reply: Call<Response>) {
    && reply.Returned?
    && reply.value.status == 200
    && reply.value.body.Parsed?
    && reply.value.body.json.Obj?
    && Truthy(Lookup(reply.value.body.json.fields, "success"))
  }

  /** `get_user_info` given what `client.get` did. It succeeds only on an
      accepted response; any other status, or a falsy `success`, is reported
      as `HTTP <status>`; exceptions (network, decoding, wrong JSON shapes)
      are caught and reported with their message cut to 50 characters. */
  function GetUserInfo(reply: Call<Response>): (info: UserInfo)
    ensures info.InfoOk? ==> Accepted(reply)
    ensures info.InfoOk? ==> info.display == Display(info.quota, info.used)
    ensures info.InfoErr? ==> ErrorPrefix <= info.error
    ensures reply.Raised? ==> info == InfoErr(ExceptionError(reply.message))
    ensures reply.Returned? && reply.value.status != 200 ==> info == InfoErr(HttpError(reply.value.status))
    ensures (reply.Returned? && reply.value.status == 200 && reply.value.body.Parsed? && reply.value.body.json.Obj?
             && !Truthy(Lookup(reply.value.body.json.fields, "success"))) ==> info == InfoErr(HttpError(200))
    ensures reply.Returned? && reply.value.status == 200 && reply.value.body.NotJson? ==>
              info == InfoErr(ExceptionError(reply.value.body.decodeError))
    ensures reply.Returned? && reply.value.status == 200 && reply.value.body.Parsed? ==>
              info == InfoFromJson(reply.value.body.json)
  {
    match reply
    case Raised(message) => InfoErr(ExceptionError(message))
    case Returned(response) =>
      if response.status != 200 then InfoErr(HttpError(response.status))
      else
        match response.body
        case NotJson(_, decodeError) => InfoErr(ExceptionError(decodeError))
        case Parsed(json) => InfoFromJson(json)
  }

  /** The reply the script expects, `{success: <truthy>, data: {quota, used_quota}}`,
      yields both amounts scaled; a missing amount reads as 0. */
  lemma GetUserInfoAmounts(data: map<string, Json>, extra: map<string, Json>, success: Json)
    requires Truthy(success)
    requires "success" !in extra && "data" !in extra
    requires "quota" !in data || IsNumber(data["quota"])
    requires "used_quota" !in data || IsNumber(data["used_quota"])
    ensures var info := GetUserInfo(Returned(Response(200, Parsed(Obj(extra["success" := success]["data" := Obj(data)])))));
            && info.InfoOk?
            && info.quota == (if "quota" in data then ToHundredths(NumberValue(data["quota"])) else 0)
            && info.used == (if "used_quota" in data then ToHundredths(NumberValue(data["used_quota"])) else 0)
  {
  }

  /** A `success` reply without `data` reports a zero balance. */
  lemma MissingDataIsZero()
    ensures GetUserInfo(Returned(Response(200, Parsed(Obj(map["success" := Bool(true)]))))) == InfoOk(0, 0, Display(0, 0))
  {
  }

  /** The scenario of an account with 1000000 raw quota of which 500000 used.
      Input pinned by the precondition, as in `CookieExamples`. */
  lemma GetUserInfoExample(quota: int, used: int)
    requires quota == 1000000 && used == 500000
    ensures var info := GetUserInfo(Returned(Response(200, Parsed(Obj(map["success" := Bool(true),
                          "data" := Obj(map["quota" := Int(quota), "used_quota" := Int(used)])])))));
            && info.InfoOk? && info.quota == 200 && info.used == 100
            && info.display == Display(info.quota, info.used)
            && Format(info.quota) == "2.0" && Format(info.used) == "1.0"
  {
    ScaleExamples(quota, 750000, used);
  }

  /** A quota that is not a number makes the division raise, and the TypeError
      message is cut to 50 characters. */
  lemma NonNumericQuota(s: string)
    ensures GetUserInfo(Returned(Response(200, Parsed(Obj(map["success" := Bool(true),
              "data" := Obj(map["quota" := Str(s)])]))))) == InfoErr(ExceptionError(DivisionTypeMessage(Str(s))))
  {
  }
}
